=== FILE: README.md ===
# Document-management API: domain and authorization layer in Dafny

This project models the domain and authorization layer of a REST API for
storing documents. Users upload files, tag them, grant each other access and
hand out expiring download links. The model covers these parts:

- **`Either`**: the two-variant result type (`Failure` | `Ok`) that every
  repository and service returns. `Monads.Bind` and `Monads.Chain` model the
  railway composition that `monads.ts` describes; the services themselves
  test `isFailure()` after each step, and the model follows them in that.
- **`Pagination`**: page slicing and page arithmetic.
- **The four entities** (`Document`, `Tag`, `Permission`, `User`). Their
  constructors and mutators validate in a fixed order. Each is modelled as a
  function that returns an `Either` carrying the first failing check's
  message.
- **The repositories** (document, permission, tag, user). Each is modelled
  as a state transition over a table of rows (`seq`) that returns the new
  table together with the result. A `fail` input stands for the storage
  statement throwing, and yields that operation's fixed message.
- **The services.**
  - Permission service: the Admin-or-Owner gate in front of grant and revoke.
  - Document service: the five-step create pipeline, with no rollback; the
    owner-only update and delete; paging.
  - Tag service: the name check and the passthroughs.
  - Download service: signed download links. Signing and verification are
    parameters.
- **The upload handler of the document controller**: the split of the
  uploaded name into name and extension, the request checks, and the mapping
  from a result to an HTTP status.

Services work on a whole `Store` (documents, tags, document/tag links,
permissions, users). A `faults: set<Op>` names the storage calls that throw.
Fresh uuids are parameters:
- `docId`, `permId` and `freshId` for single rows;
- `tagId: nat -> string` for the k-th created tag.

JavaScript semantics are written out where they matter:
- `trim() === ""` is "every character is ECMAScript whitespace" (`Text.Blank`);
- `.length` counts UTF-16 code units (`Text.Utf16Length`);
- `s || t` on strings is `Text.OrElse`;
- `lastIndexOf`, `substring` (clamping) and `split(".").pop()` are in `Text`.

Modules, one file each:
- `Monads`, `Text`, `Seqs`, `Paging`;
- the entities: `DocumentEntity`, `TagEntity`, `PermissionEntity`, `UserEntity`;
- `Storage`;
- the repositories: `PermissionRepository`, `TagRepository`, `UserRepository`,
  `DocumentRepository`;
- the services: `PermissionService`, `TagService`, `DocumentService`,
  `DownloadService`;
- `DocumentController`.

## Model

| member | source | states |
|---|---|---|
| Monads.GuardsComplementary | src/utils/monads.ts:4-37 | every value is exactly one variant; `isFailure()` and `isOk()` are complementary and each recognises its own variant |
| Monads.ChainKeepsFailure | src/utils/monads.ts:64-66 | once a chain is on the failure track, no later step runs and the error comes out unchanged |
| Monads.ChainAppend | src/utils/monads.ts:64-69 | running two pipelines back to back equals running their concatenation |
| Monads.ChainStopsAtFirstFailure | src/utils/monads.ts:64-66 | if every step before k succeeds and step k fails with `err`, the whole pipeline is `Failure(err)`, whatever later steps would do |
| Text.Trim | src/entities/Document.ts:33-41 | `trim()` gives "" exactly when every character is whitespace |
| Text.Utf16LengthBounds | src/entities/Tag.ts:23-25 | the length the source compares is at least the number of code points, and equal to it for text inside the Basic Multilingual Plane |
| Text.LastIndexOf | src/controller/documentController.ts:44 | -1 exactly when there is no dot; otherwise the position of a dot with no dot after it |
| Text.SplitLastPiece | src/controller/documentController.ts:45 | the last piece of `split(".")` is the text after the last dot, or the whole text when there is none |
| Paging.NewPagination | src/utils/Pagination.ts:9-20 | the metadata is kept as given; the page is `items[(page-1)*limit .. min(page*limit, n)]`, at most `limit` long, and empty (not an error) past the end |
| Paging.TotalPages | src/utils/Pagination.ts:43-45 | the result n is the ceiling of totalItems / itemsPerPage: `n*limit >= total` and `(n-1)*limit < total` |
| Paging.HasNextPage | src/utils/Pagination.ts:23-25 | there is a next page exactly when the pages up to the current one hold fewer than totalItems items |
| Paging.NextPage | src/utils/Pagination.ts:33-35 | `currentPage+1` exactly when a next page exists, null otherwise |
| Paging.PrevPage | src/utils/Pagination.ts:28-40 | `currentPage-1` exactly when currentPage > 1, null otherwise |
| Paging.GetPaginatedData | src/utils/Pagination.ts:48-62 | echoes the page, totalItems, currentPage and itemsPerPage, together with the ceiling page count |
| Paging.PagesUpToPrefix | src/utils/Pagination.ts:17-20 | pages 1..n laid end to end are exactly the first `min(n*limit, |items|)` items |
| Paging.PagesCoverItems | src/utils/Pagination.ts:17-45 | when totalItems = \|items\|, pages 1..totalPages laid end to end reproduce the item list |
| DocumentEntity.ValidateDocument | src/entities/Document.ts:32-45 | valid iff name, extension and path are non-blank and the user id is non-empty; checks run in the order name, extension, path, user id, and the first failure gives the message |
| DocumentEntity.NewDocument | src/entities/Document.ts:12-30 | succeeds exactly on valid fields; every getter returns its argument; a supplied id is kept, an empty one is replaced by a fresh id; failures carry the ordered messages |
| DocumentEntity.UpdateFilepath | src/entities/Document.ts:71-77 | a blank path is rejected; otherwise only the path changes, and validity is preserved |
| DocumentEntity.WhitespaceUserIdAccepted | src/entities/Document.ts:42-44 | a whitespace-only user id is accepted; only "" is rejected |
| TagEntity.CheckTagName | src/entities/Tag.ts:19-26 | a blank name gives "cannot be empty", then a name of more than 50 code units, measured untrimmed, gives "cannot exceed 50 characters" |
| TagEntity.NewTag | src/entities/Tag.ts:10-17 | succeeds exactly on a valid name, keeps the name and a supplied id, otherwise uses a fresh id |
| TagEntity.UpdateName | src/entities/Tag.ts:46-55 | the same two checks; on success only the name changes and the id stays |
| TagEntity.TagNameLengthBoundary | src/entities/Tag.ts:23-25 | a non-blank name of exactly 50 characters is accepted, one of 51 is rejected |
| PermissionEntity.AllowedType | src/entities/Permission.ts:36 | the type is allowed exactly when it is "Owner", "Editor" or "Viewer" (case-sensitive) |
| PermissionEntity.ValidatePermission | src/entities/Permission.ts:29-41 | valid iff the document id and user id are non-blank and the type is allowed; checked in that order |
| PermissionEntity.NewPermission | src/entities/Permission.ts:11-27 | succeeds exactly on valid fields; document id, user id, type and a supplied id round-trip; failures carry the ordered messages |
| PermissionEntity.UpdatePermissionType | src/entities/Permission.ts:64-72 | an invalid type is rejected; otherwise only the type changes |
| PermissionEntity.ProbePermissionRejected | src/services/documentService.ts:104-106 | the probe permission with type "" that the owner check builds cannot be constructed |
| UserEntity.ValidateUser | src/entities/User.ts:31-44 | valid iff the email has "@", the username is non-blank, the password has at least 8 code units and the role is a `UserRole`; checked in that order |
| UserEntity.NewUser | src/entities/User.ts:11-29 | succeeds exactly on valid fields; the role defaults to "User" when omitted; fields and a supplied id round-trip; failures carry the ordered messages: email, username, password, and then an unknown role |
| UserEntity.UpdatePassword | src/entities/User.ts:75-81 | a password under 8 code units is rejected; otherwise only the password changes, and validity is preserved |
| PermissionRepository.Add | src/repositories/implementations/permissionRepository.ts:9-32 | appends the row exactly as given, with no uniqueness or type check; a storage error gives "Failed to grant permission" and changes nothing |
| PermissionRepository.Remove | src/repositories/implementations/permissionRepository.ts:34-53 | deletes every row of the (document, user) pair whatever its type and keeps every other row; answers ok(whether a row existed), never a Failure for "none" |
| PermissionRepository.CheckOwnership | src/repositories/implementations/permissionRepository.ts:55-76 | ok(true) exactly when a (document, user, "Owner") row exists; Editor and Viewer rows do not count |
| PermissionRepository.AddOwnerGrantsOwnership | src/repositories/implementations/permissionRepository.ts:9-72 | after adding an Owner row, that pair is an owner and every other pair's ownership is unchanged |
| PermissionRepository.RemoveRevokesOnlyThatPair | src/repositories/implementations/permissionRepository.ts:39-47 | after a revoke, that pair owns nothing and every other pair's ownership is unchanged |
| TagRepository.Add | src/repositories/implementations/tagRepository.ts:9-20 | appends a tag with the given name, with no blank or length check |
| TagRepository.Update | src/repositories/implementations/tagRepository.ts:22-34 | renames only the rows with the id; answers ok(null), not a Failure, when no row has it |
| TagRepository.Remove | src/repositories/implementations/tagRepository.ts:36-46 | removes the rows with the id and keeps the others; answers ok(whether one existed) |
| TagRepository.FetchAll | src/repositories/implementations/tagRepository.ts:47-54 | every tag in table order, or "Failed to fetch tags" |
| UserRepository.ToEntity | src/repositories/implementations/userRepository.ts:128-138 | a stored row becomes an entity exactly when it is valid, and a valid row with an id comes back unchanged |
| UserRepository.Add | src/repositories/implementations/userRepository.ts:8-27 | stores the user's id, username, email, hashed password and role; ok exactly when the row re-validates; the row stays even when it does not |
| UserRepository.FetchById | src/repositories/implementations/userRepository.ts:29-40 | ok(null) for an unknown id; the first row with the id is returned when it is a valid user, and becomes the Failure when it is not |
| UserRepository.FetchByUsername | src/repositories/implementations/userRepository.ts:42-55 | ok(null) when no row has the username; the first row with it is returned when it is a valid user, and becomes the Failure when it is not |
| UserRepository.FetchByEmail | src/repositories/implementations/userRepository.ts:57-68 | ok(null) when no row has the email; the first row with it is returned when it is a valid user, and becomes the Failure when it is not |
| UserRepository.Update | src/repositories/implementations/userRepository.ts:79-100 | "User not found for update" for an unknown id; otherwise overwrites exactly the rows with the id |
| UserRepository.Remove | src/repositories/implementations/userRepository.ts:101-112 | ok(true) exactly when a row was deleted, otherwise "User not found for deletion"; other rows are kept |
| UserRepository.FetchUserRole | src/repositories/implementations/userRepository.ts:114-125 | ok("") for an unknown user, otherwise the role of the first row with the id |
| DocumentRepository.Add | src/repositories/implementations/documentRepository.ts:16-39 | appends a row with the fresh id and the given fields, with no validation |
| DocumentRepository.FetchById | src/repositories/implementations/documentRepository.ts:41-52 | ok(null) exactly when no row has the id, otherwise a stored row with that id |
| DocumentRepository.Remove | src/repositories/implementations/documentRepository.ts:54-69 | ok(true) exactly when a row was deleted, otherwise "Document not found for deletion" and never ok(false); other rows are kept |
| DocumentRepository.FetchAll | src/repositories/implementations/documentRepository.ts:70-77 | every document in table order, or "Failed to fetch Documents" |
| DocumentRepository.Update | src/repositories/implementations/documentRepository.ts:78-105 | "Document not found for update" for an unknown id; otherwise patches only the rows with the id, leaves omitted fields alone, and returns a patched row |
| DocumentRepository.AssignPermission | src/repositories/implementations/documentRepository.ts:107-129 | appends the permission row exactly as given |
| DocumentRepository.GetOrCreateTags | src/repositories/implementations/documentRepository.ts:130-159 | a storage error gives "Failed to get or create tags"; the inserts are not in a transaction, so on an error any subset of the inserts that did not fail may stay in the table, and the model keeps the first `landed` of the missing tags (never all of them); otherwise ok |
| DocumentRepository.GetOrCreateTagsStored | src/repositories/implementations/documentRepository.ts:130-159 | every returned tag is in the tags table afterwards |
| DocumentRepository.GetOrCreateTagsAppends | src/repositories/implementations/documentRepository.ts:137-155 | stored tags are only appended to, and the result is the existing matches followed by exactly the appended tags |
| DocumentRepository.GetOrCreateTagsCreatesOnlyMissing | src/repositories/implementations/documentRepository.ts:137-154 | every created tag carries a requested name that no stored tag had |
| DocumentRepository.GetOrCreateTagsCoversNames | src/repositories/implementations/documentRepository.ts:137-155 | every requested name is the name of some returned tag |
| DocumentRepository.GetOrCreateTagsNonEmpty | src/repositories/implementations/documentRepository.ts:130-155 | a non-empty request never returns an empty tag list |
| DocumentRepository.GetOrCreateTagsOnlyRequested | src/repositories/implementations/documentRepository.ts:132-155 | every returned tag carries a requested name |
| DocumentRepository.GetOrCreateTagsKeepsMatches | src/repositories/implementations/documentRepository.ts:132-136 | every stored tag with a requested name is returned |
| DocumentRepository.LinkDocumentWithTags | src/repositories/implementations/documentRepository.ts:201-219 | appends exactly one (document, tag id) pair per tag, in order, and keeps the existing links |
| DocumentRepository.FetchUserPermission | src/repositories/implementations/documentRepository.ts:175-200 | ok("Owner") exactly when an Owner row exists for the pair, otherwise "Permission not found" |
| DocumentRepository.FetchUserRole | src/repositories/implementations/documentRepository.ts:161-172 | ok("") for an unknown user, otherwise the role of the first row with the id |
| PermissionService.AuthorizedMeansAdminOrOwner | src/services/permissionService.ts:23-31 | the gate passes exactly for role "Admin", or for an owner whose ownership query does not fail |
| PermissionService.GrantPermission | src/services/permissionService.ts:15-39 | without the gate: "Insufficient permissions to grant access" and nothing added; with it: the repository's add result, with exactly that row appended |
| PermissionService.RevokePermission | src/services/permissionService.ts:41-60 | without the gate: "Insufficient permissions to revoke access" and nothing removed; with it: the repository's remove of the pair, whatever the type, and every row for another pair is kept |
| PermissionService.GrantGateIgnoresTarget | src/services/permissionService.ts:23-31 | whether a grant goes through never depends on the target user or the requested type |
| PermissionService.NonOwnerIsRefused | src/services/permissionService.ts:23-56 | a non-Admin with no Owner row is refused both operations and nothing changes, however the storage behaves |
| PermissionService.GrantedOwnerIsAuthorized | src/services/permissionService.ts:23-38 | a user granted "Owner" passes the gate for that document afterwards |
| DocumentService.OwnerCheckMeansOwnerRow | src/services/documentService.ts:103-117 | the update/delete owner check passes exactly when an Owner row exists and the query does not fail |
| DocumentService.GrantOwner | src/services/documentService.ts:60-70 | the Owner permission is built first, so a blank document or user id fails with the constructor's message and writes nothing; a failed insert gives "Failed to assign permission"; otherwise one Owner row is appended |
| DocumentService.LinkAndGrant | src/services/documentService.ts:52-70 | a failed link gives "Failed to link document with tags" and writes nothing; otherwise the links are appended and stay whatever the permission step does |
| DocumentService.TagLinkAndGrant | src/services/documentService.ts:45-70 | a failed tag step gives "Failed to retrieve or create tags" and keeps the tags that landed; a blank id or a failed permission insert keeps the table `getOrCreateTags` left and one link per tag it returned, and adds no permission; on success the returned tags are exactly those `getOrCreateTags` returned, each gets one link, and the Owner row is appended |
| DocumentService.CreateDocument | src/services/documentService.ts:22-73 | succeeds exactly when the entity is valid, the document and user ids are not blank and none of the four storage steps fails; an invalid entity or a failed insert changes nothing; each later failure has its own message and keeps what earlier steps wrote (the document row, the tags table `getOrCreateTags` left, and one link per tag it returned); on success the returned tags are exactly those `getOrCreateTags` returned, and the document row, one link per tag and an Owner row for the creator are appended, with users untouched |
| DocumentService.CreatedDocumentCarriesEveryName | src/services/documentService.ts:45-72 | after a successful create, every requested tag name names a tag in the table that is linked to the new document |
| DocumentService.CreateWithoutOwnerLeavesOrphan | src/services/documentService.ts:40-70 | nothing is rolled back: when only the permission insert fails, the document row, the tags created and one link per tag stay and no permission is added |
| DocumentService.BlankCreatorLeavesOrphan | src/services/documentService.ts:31-70 | a user id " " passes the document entity, but the Owner permission built after the writes refuses it: "User ID cannot be empty.", with the row, the tags created and one link per tag kept and no permission |
| DocumentService.FetchDocumentById | src/services/documentService.ts:75-79 | the repository lookup: "Failed to fetch document by ID" exactly when the query fails, otherwise null exactly when no document has the id, or a stored document with it |
| DocumentService.UpdateTarget | src/services/documentService.ts:91-117 | "Document not found" when the lookup fails or finds nothing, then "Only the owner can update this document" without an Owner row; otherwise ok with the stored row |
| DocumentService.Revised | src/services/documentService.ts:126-151 | an omitted or empty name or extension falls back to the stored one; the id and the owner's userId are kept; the path is the upload path of the new name |
| DocumentService.Move | src/services/documentService.ts:121-139 | a rename happens exactly when the old and new paths differ |
| DocumentService.Commit | src/services/documentService.ts:153-154 | the repository update never changes an id or owner, and a returned row carries the new name, extension and path |
| DocumentService.RenameThenValidate | src/services/documentService.ts:120-154 | in the source's order: a failed rename gives "Failed to rename file" with nothing changed; a rejected entity still reports the rename it made; ok exactly when the rename (if any) works, the entity is valid and the update succeeds |
| DocumentService.ValidateThenRename | src/services/documentService.ts:120-154 | with validation first, a rejected entity fails with no rename and no store change; a valid entity whose rename fails gives "Failed to rename file"; ok exactly when the entity is valid, the rename (if any) works and the update succeeds |
| DocumentService.StepOrdersAgreeOtherwise | src/services/documentService.ts:120-154 | the two orders differ only on a rejected entity; there both fail with the store untouched, and only the corrected order is sure to move nothing |
| DocumentService.UpdateDocumentAsWritten | src/services/documentService.ts:81-155 | the source's update: the not-found and owner errors come first and change nothing; a failed rename gives "Failed to rename file"; ok exactly when the target passes, the revised entity is valid, the rename (if any) works and the update succeeds; only the documents table can change; a reported move has distinct paths |
| DocumentService.UpdateDocument | src/services/documentService.ts:81-155 | the corrected update: same errors; a failed rename of a valid entity gives "Failed to rename file"; a failed rename or rejected entity moves nothing; ok exactly when the target passes, the revised entity is valid, the rename (if any) works and the update succeeds; ids and owners never change; on success the row has the requested name and extension and points at their upload path |
| DocumentService.UpdateOrderingsAgreeOtherwise | src/services/documentService.ts:120-151 | the source's update and the corrected one differ only where both fail with the store untouched, and only the corrected one is sure to move nothing |
| DocumentService.RenameBeforeValidation | src/services/documentService.ts:134-151 | renaming "report.txt" to " " moves the file and then fails with "File name cannot be empty."; the corrected update fails without moving it |
| DocumentService.DeleteDocument | src/services/documentService.ts:157-196 | "Only the owner can delete this document" without an Owner row; "Failed to delete document" when the delete fails or finds nothing; otherwise ok(true), with the row gone, other rows kept, and nothing else changed |
| DocumentService.OwnerMayDelete | src/services/documentService.ts:165-189 | an owner of an existing document deletes it |
| DocumentService.NonOwnerMayNotDelete | src/services/documentService.ts:165-179 | without an Owner row the delete is refused and nothing changes |
| DocumentService.CreatorMayDelete | src/services/documentService.ts:61-72 | after a successful create the creator can delete the document and a user who owned nothing there cannot |
| DocumentService.GetPaginatedDocuments | src/services/documentService.ts:198-215 | a fetch failure's message is passed on; otherwise the page of all documents, with totalItems = number of documents |
| TagService.GetAllTags | src/services/tagService.ts:16-19 | every stored tag, or the repository's failure |
| TagService.CreateTag | src/services/tagService.ts:21-25 | "" gives "Tag name is required" without touching the table; otherwise exactly the repository's add: "Failed to create tag" with no change when the insert fails, else the new tag appended |
| TagService.UpdateTag | src/services/tagService.ts:27-34 | "" gives "Tag name is required"; otherwise the repository's update: "Failed to update tag" with no change when it fails, ok(null) for an unknown id, and on success every row with the id renamed; other tags are untouched |
| TagService.DeleteTag | src/services/tagService.ts:36-39 | no existence pre-check: "Failed to delete tag" with no change when the delete fails; otherwise ok(whether the tag existed), afterwards no tag has the id, every other tag is kept and no tag is added |
| TagService.DeleteUndoesCreate | src/services/tagService.ts:21-39 | deleting a tag just created under a fresh id restores the table exactly and answers ok(true) |
| TagService.GetPaginatedTags | src/services/tagService.ts:40-54 | a fetch failure's message is passed on; otherwise the paginated-data bundle with totalItems = number of tags |
| TagService.BlankTagNameStored | src/services/tagService.ts:21-25 | a whitespace-only name passes the service check and is stored |
| DownloadService.GenerateDownloadLink | src/services/downloadService.ts:20-48 | a lookup failure's message is passed on; "Document not found" for a missing document; otherwise protocol://host/api/downloads/id?token= followed by a token signed over exactly `{documentId}` |
| DownloadService.FileOf | src/services/downloadService.ts:57-79 | the path served is the upload path of a stored document with that id |
| DownloadService.DownloadFile | src/services/downloadService.ts:49-84 | "Invalid or expired token" before any lookup when verification fails; otherwise the lookup and its path, whatever document the token names |
| DownloadService.DownloadFileBound | src/services/downloadService.ts:49-84 | the corrected download: refuses a token whose payload names another document, and otherwise agrees with the source |
| DownloadService.LinkTokenDownloads | src/services/downloadService.ts:42-54 | a link's own token downloads its document |
| DownloadService.TokenForOtherDocumentAccepted | src/services/downloadService.ts:53-54 | as written, a token issued for document a downloads another document b; the corrected version refuses it |
| DocumentController.HandleResponse | src/controller/documentController.ts:14-26 | a Failure gives 500 with its message, an Ok with a falsy value gives 404, anything else gives the success status with the value |
| DocumentController.SplitFileName | src/controller/documentController.ts:42-45 | the name is the text before the last dot, or the whole name when that text is empty; the extension is the text after the last dot (the whole name without a dot) and contains no dot |
| DocumentController.SplitRoundTrip | src/controller/documentController.ts:43-45 | when the last dot is not the first character, name + "." + extension is the original name |
| DocumentController.NoDotDoublesName | src/controller/documentController.ts:43-47 | "README" is recorded at "uploads/README.README" |
| DocumentController.LeadingDotKeepsName | src/controller/documentController.ts:43-45 | ".env" keeps ".env" as its name, with the extension "env" |
| DocumentController.TrailingDotEmptyExtension | src/controller/documentController.ts:45 | "a." has the extension "" |
| DocumentController.UploadDocument | src/controller/documentController.ts:28-58 | no file gives 400, no user 403, non-array tags 400, all before anything is stored; a 201 carries the new document, whose path is "uploads/" + name + "." + extension of the split name and whose creator has a non-blank id and holds an Owner row; once the three checks pass, the store is what `createDocument` left on the split name, path "uploads/<name>.<extension>", user and tags, and the answer is 201 with its value exactly when it succeeds, otherwise 500 with its message |
| DocumentController.UploadSucceedsWithoutFaults | src/controller/documentController.ts:28-58 | an upload whose split name and extension are not blank, by a non-blank user, with a tags array and no storage error, is answered 201 with the new document; the uploader owns it and every requested tag name is linked to it |

## Left out

- Databases, the file system, HTTP, logging and timestamps are not modelled.
  - Storage is plain tables.
  - A storage error is an input.
  - `fs.rename` is the `renameOk` input.
  - `createdAt` and `updatedAt` are dropped.
- `path.join(__dirname, "../../uploads", …)` is modelled as `uploadRoot + "/" + name + "." + extension`. Path normalisation (for example of ".." inside a name) is not modelled.
- uuids are parameters, so the model does not show that they are fresh.
- JWT signing, the secret and the expiry time are the `sign` and `verify` parameters of `DownloadService.Tokens`. Expiry is part of `verify`.
- The `tags` form field's `JSON.parse` is left out. The handler sees either an array of names or "not an array". An array that holds non-strings is not modelled.
- An empty tag-name list is left out.
  - `getOrCreateTags` builds `or()` of no conditions, and what the query builder does with that is not visible.
  - Inserting no link rows is ORM-defined too.
  - So `GetOrCreateTags`, `LinkDocumentWithTags`, `CreateDocument` and `UploadDocument` require a non-empty list.
- GetOrCreateTags: the concurrent tag inserts (`Promise.all`) are modelled one after another. When one of them fails, any subset of the inserts that did not fail may stay, because there is no transaction. The model represents only the subsets that are prefixes: the first `landed` inserts in issue order.
- Pagination with `limit <= 0` (division by zero) or `page < 1` (negative slice offsets) is excluded by preconditions. The controller's `parseInt(...) || 1` does not rule out negative numbers.
- Repository rows are modelled as entity records. The source hands back untyped rows, so calls such as `createdDocument.getId()`, `existingDocument.getUserId()` and `document.getFileName()` would throw there. The model uses the row's fields. In `downloadFile` that throw would surface as "Invalid or expired token".
- An entity constructor that throws inside a service, and is not caught there, is modelled as a `Failure` carrying the constructor's message. In `createDocument` the Owner permission is built after the row, tags and links are written, so such a failure keeps those writes.
- UploadDocument: `uploadDocument` calls `createDocument` without a try/catch. So when `DocumentFactory.create` or `PermissionFactory.create` throws, the handler's promise is rejected and the handler itself sends no response. The model answers 500 with the constructor's message, which is what `handleResponse` would send for that failure.
- The `UserRole` values come from a schema file that is not part of this model. They are assumed to be "Admin" and "User".
- Not modelled: the user service, the search service, the other controllers, the routes, the JWT middleware, and the user repository's `fetchAll`. The controller's get, update, delete and paging handlers are left out too, beyond their shared `handleResponse`.
- `createDocument` validates the document entity before the first write. An invalid entity or a failed document insert therefore leaves the store exactly as it was; every later failure keeps what was written before it.
- Sharing one uploaded file name between documents, and deleting the file from disk on delete, are not part of this layer.

## Divergences between the source's wiring and this model

The document service and its controller do not type-check against the
repositories they call. This model wires them as evidently intended.

- `documentService.ts:40` passes an entity to `documentRepository.add`, which
  takes four strings. The model passes the fields.
- `documentService.ts:46,53` call `getOrCreateTags` and `linkDocumentWithTags`
  on the tag repository. `documentService.ts:66` calls `assignPermission` on
  the permission repository. All three exist only on the document repository,
  which is where the model calls them.
- `documentService.ts:104-106,165-168` build a probe permission with type "".
  The `Permission` constructor rejects that type
  (`PermissionEntity.ProbePermissionRejected`). They then call
  `fetchUserPermission`, which only the document repository declares. The
  model asks `fetchUserPermission(documentId, userId)` directly.
- `documentService.ts:111,173` call `getPermissionType()` on the string that
  `fetchUserPermission` returns. The model compares that string with "Owner".
- `documentService.ts:146-154` build the updated entity with a fresh id and
  pass it to `update(id, …)`. The model updates the existing id.
- `documentController.ts:8-11` constructs the service with two of its four
  arguments. The model gives it all its repositories.
- The tag service does not check that a tag exists before updating or
  deleting it. The model follows the code: an unknown id gives ok(null) or
  ok(false).

## Findings

| source | as written | input that shows it | evidently intended | confidence | as-written member | corrected member |
|---|---|---|---|---|---|---|
| src/services/documentService.ts:134-151 | the file is renamed on disk before the updated entity is built, and so before it is validated | with the service wired as listed under Divergences, renaming a stored "report.txt" with fileName " " moves the file to " .txt", then fails with "File name cannot be empty.", and the row still points at the old file (`DocumentService.RenameBeforeValidation`) | validate the new name before touching the file | not executed; high | DocumentService.UpdateDocumentAsWritten | DocumentService.UpdateDocument |
| src/services/downloadService.ts:53-54 | `jwt.verify`'s decoded payload is discarded, so a valid token for any document is accepted | with rows read through their fields as listed under Left out, a token from the link for document a, presented with document id b, downloads b (`DownloadService.TokenForOtherDocumentAccepted`) | accept only a token whose `documentId` is the requested one | not executed; medium | DownloadService.DownloadFile | DownloadService.DownloadFileBound |

=== FILE: document_controller.dfy ===
/** The upload handler of `DocumentController`: the request checks, the split
    of the uploaded file's original name into name and extension, and the
    mapping of a service result to an HTTP status. */
module DocumentController {
  import opened Monads
  import opened Text
  import opened DocumentEntity
  import opened Storage
  import DocumentService
  import PermissionRepository
  import PermissionEntity

  const NoFileUploaded := "No file uploaded"
  const NotAuthenticated := "User not authenticated"
  const TagsNotArray := "Tags should be an array"
  const DocumentNotFoundMessage := "Document not found."

  /** The JSON body of a response. */
  datatype Body<T> = ErrorBody(error: string) | MessageBody(message: string) | Json(value: T)

  datatype Response<T> = Response(status: nat, body: Body<T>)

  /** The `tags` field of the upload form, after the optional JSON decoding. */
  datatype TagsField = TagArray(names: seq<string>) | NotAnArray

  datatype NameParts = NameParts(fileName: string, fileExtension: string)

  /** `handleResponse`: a Failure is 500 with its message, an Ok holding a
      falsy value is 404, anything else is `successStatus` with the value.
      `truthy` is JavaScript truthiness for the value type at hand. */
  function HandleResponse<T>(result: Either<string, T>, truthy: T -> bool, successStatus: nat): (r: Response<T>)
    ensures result.Failure? ==> r == Response(500, ErrorBody(result.error))
    ensures result.Ok? && !truthy(result.value) ==> r == Response(404, MessageBody(DocumentNotFoundMessage))
    ensures result.Ok? && truthy(result.value) ==> r == Response(successStatus, Json(result.value))
    ensures successStatus != 500 ==> (r.status == 500 <==> result.Failure?)
    ensures successStatus != 404 ==> (r.status == 404 <==> result.Ok? && !truthy(result.value))
  {
    match result
    case Failure(e) => Response(500, ErrorBody(e))
    case Ok(v) => if !truthy(v) then Response(404, MessageBody(DocumentNotFoundMessage)) else Response(successStatus, Json(v))
  }

  /** The name/extension split of an uploaded file: the name is the text
      before the last ".", or the whole name when that text is empty (no dot
      at all, or only a leading one); the extension is the text after the
      last ".", which is the whole name when there is no dot. */
  function SplitFileName(originalName: string): (r: NameParts)
    ensures '.' !in r.fileExtension
    ensures '.' !in originalName ==> r == NameParts(originalName, originalName)
    ensures '.' in originalName ==> r.fileExtension == originalName[LastIndexOf(originalName, '.') + 1..]
    ensures LastIndexOf(originalName, '.') > 0 ==> r.fileName == originalName[..LastIndexOf(originalName, '.')]
    ensures LastIndexOf(originalName, '.') <= 0 ==> r.fileName == originalName
  {
    var dot := LastIndexOf(originalName, '.');
    var pieces := Split(originalName, '.');
    SplitLastPiece(originalName, '.');
    var ext := pieces[|pieces| - 1];
    forall k | 0 <= k < |ext|
      ensures ext[k] != '.'
    {
      assert ext[k] == originalName[dot + 1 + k];
    }
    NameParts(OrElse(Substring(originalName, 0, dot), originalName), OrElse(ext, ""))
  }

  /** Where the upload is recorded: "uploads/<name>.<extension>". */
  function StoredPath(parts: NameParts): string {
    "uploads/" + parts.fileName + "." + parts.fileExtension
  }

  /** When the last dot is not the first character, the split loses nothing:
      name, dot and extension spell the original name again. */
  lemma SplitRoundTrip(originalName: string)
    requires LastIndexOf(originalName, '.') > 0
    ensures var r := SplitFileName(originalName); r.fileName + "." + r.fileExtension == originalName
  {
    var dot := LastIndexOf(originalName, '.');
    var r := SplitFileName(originalName);
    assert r == NameParts(originalName[..dot], originalName[dot + 1..]);
    RejoinAt(originalName, dot);
  }

  /** Cutting a string around one position and gluing it back gives the string. */
  lemma RejoinAt(s: string, i: nat)
    requires i < |s|
    ensures s[..i] + [s[i]] + s[i + 1..] == s
  {
    assert s[..i] + s[i..] == s;
    assert s[i..] == [s[i]] + s[i + 1..];
  }

  /** Without a dot the whole name is both name and extension, so "README" is
      recorded at "uploads/README.README". */
  lemma NoDotDoublesName()
    ensures SplitFileName("README") == NameParts("README", "README")
    ensures StoredPath(SplitFileName("README")) == "uploads/README.README"
  {
    assert '.' !in "README";
  }

  /** A leading dot only: ".env" keeps ".env" as the name and "env" as the extension. */
  lemma LeadingDotKeepsName()
    ensures SplitFileName(".env") == NameParts(".env", "env")
  {
    assert ".env"[0] == '.' && forall j | 0 < j < 4 :: ".env"[j] != '.';
    assert LastIndexOf(".env", '.') == 0;
    assert ".env"[1..] == "env";
  }

  /** A trailing dot leaves the extension empty. */
  lemma TrailingDotEmptyExtension()
    ensures SplitFileName("a.") == NameParts("a", "")
  {
    assert LastIndexOf("a.", '.') == 1;
    assert "a."[..1] == "a";
  }

  /** `uploadDocument`: a missing file is 400, a missing (falsy) user id 403,
      a `tags` field that is not an array 400, all before the service runs;
      otherwise the split name goes to `createDocument` and the result is
      answered with 201. */
  function UploadDocument(store: Store, originalName: Option<string>, userId: Option<string>, tags: TagsField,
                          faults: set<Op>, docId: string, permId: string, tagId: nat -> string, tagsLanded: nat)
    : (r: (Store, Response<DocumentService.Created>))
    requires tags.TagArray? ==> |tags.names| > 0
    ensures originalName.None? ==> r == (store, Response(400, ErrorBody(NoFileUploaded)))
    ensures originalName.Some? && (userId.None? || userId.value == "") ==> r == (store, Response(403, ErrorBody(NotAuthenticated)))
    ensures originalName.Some? && userId.Some? && userId.value != "" && tags.NotAnArray? ==> r == (store, Response(400, ErrorBody(TagsNotArray)))
    ensures r.1.status in {201, 400, 403, 500}
    ensures r.1.status == 201 ==> r.1.body.Json? && originalName.Some? && userId.Some? && !Blank(userId.value)
    ensures r.1.status == 201 ==> var d := r.1.body.value.document;
      && d == Document(docId, d.fileName, d.fileExtension, d.filepath, userId.value)
      && NameParts(d.fileName, d.fileExtension) == SplitFileName(originalName.value)
      && d.filepath == "uploads/" + d.fileName + "." + d.fileExtension
      && PermissionRepository.HasOwnerRow(r.0.permissions, docId, userId.value)
    ensures r.1.status != 201 && r.1.status != 500 ==> r.0 == store
    ensures originalName.Some? && userId.Some? && userId.value != "" && tags.TagArray? ==>
      var parts := SplitFileName(originalName.value);
      var c := DocumentService.CreateDocument(store, parts.fileName, parts.fileExtension, StoredPath(parts), userId.value,
                                              tags.names, faults, docId, permId, tagId, tagsLanded);
      && r.0 == c.0
      && (r.1.status == 201 <==> c.1.Ok?)
      && (c.1.Ok? ==> r.1 == Response(201, Json(c.1.value)))
      && (c.1.Failure? ==> r.1 == Response(500, ErrorBody(c.1.error)))
  {
    if originalName.None? then (store, Response(400, ErrorBody(NoFileUploaded)))
    else if userId.None? || userId.value == "" then (store, Response(403, ErrorBody(NotAuthenticated)))
    else if tags.NotAnArray? then (store, Response(400, ErrorBody(TagsNotArray)))
    else
      var parts := SplitFileName(originalName.value);
      var created := DocumentService.CreateDocument(store, parts.fileName, parts.fileExtension, StoredPath(parts), userId.value,
                                                    tags.names, faults, docId, permId, tagId, tagsLanded);
      PermissionRepository.OwnerRowAppended(store.permissions, permId, docId, userId.value);
      (created.0, HandleResponse(created.1, (c: DocumentService.Created) => true, 201))
  }

  /** An upload with a file whose name and extension are not blank, a
      non-blank user, a tags array and no storage error is answered 201 with
      the new document, which its uploader owns and which is linked to a tag
      of every requested name. */
  lemma UploadSucceedsWithoutFaults(store: Store, originalName: string, userId: string, tagNames: seq<string>,
                                    docId: string, permId: string, tagId: nat -> string, tagsLanded: nat)
    requires |tagNames| > 0
    requires !Blank(docId) && !Blank(userId)
    requires !Blank(SplitFileName(originalName).fileName) && !Blank(SplitFileName(originalName).fileExtension)
    ensures var r := UploadDocument(store, Some(originalName), Some(userId), TagArray(tagNames), {}, docId, permId, tagId, tagsLanded);
      && r.1.status == 201
      && r.1.body.value.document == Document(docId, SplitFileName(originalName).fileName, SplitFileName(originalName).fileExtension,
                                             StoredPath(SplitFileName(originalName)), userId)
      && PermissionRepository.HasOwnerRow(r.0.permissions, docId, userId)
      && forall n | n in tagNames :: exists t | t in r.0.tags :: t.name == n && DocumentTag(docId, t.id) in r.0.documentTags
  {
    var parts := SplitFileName(originalName);
    var path := StoredPath(parts);
    assert path[0] == 'u' && !IsWhitespace(path[0]);
    assert ValidDocument(Document(docId, parts.fileName, parts.fileExtension, path, userId));
    var c := DocumentService.CreateDocument(store, parts.fileName, parts.fileExtension, path, userId, tagNames, {},
                                            docId, permId, tagId, tagsLanded);
    var r := UploadDocument(store, Some(originalName), Some(userId), TagArray(tagNames), {}, docId, permId, tagId, tagsLanded);
    assert c.1.Ok?;
    assert r.0 == c.0 && r.1 == Response(201, Json(c.1.value));
    forall n | n in tagNames
      ensures exists t | t in r.0.tags :: t.name == n && DocumentTag(docId, t.id) in r.0.documentTags
    {
      DocumentService.CreatedDocumentCarriesEveryName(store, parts.fileName, parts.fileExtension, path, userId, tagNames, {},
                                                      docId, permId, tagId, tagsLanded, n);
    }
  }
}

=== FILE: document_entity.dfy ===
/** The `Document` entity: a validated record of an uploaded file and the
    user who created it. Timestamps are not modelled. */
module DocumentEntity {
  import opened Monads
  import opened Text

  datatype Document = Document(id: string, fileName: string, fileExtension: string, filepath: string, userId: string)

  const FileNameEmpty := "File name cannot be empty."
  const FileExtensionEmpty := "File extension cannot be empty."
  const FilepathEmpty := "File path cannot be empty."
  const DocumentUserIdEmpty := "User ID cannot be empty."

  /** The invariant every constructed document keeps. Note that `userId` is
      only required to be non-empty: a whitespace-only user id passes. */
  predicate ValidDocument(d: Document) {
    !Blank(d.fileName) && !Blank(d.fileExtension) && !Blank(d.filepath) && d.userId != ""
  }

  /** `validate()`: the message of the first failing check, in the order
      name, extension, path, user id; `None` when all pass. */
  function ValidateDocument(d: Document): (e: Option<string>)
    ensures e.None? <==> ValidDocument(d)
    ensures Blank(d.fileName) ==> e == Some(FileNameEmpty)
    ensures !Blank(d.fileName) && Blank(d.fileExtension) ==> e == Some(FileExtensionEmpty)
    ensures !Blank(d.fileName) && !Blank(d.fileExtension) && Blank(d.filepath) ==> e == Some(FilepathEmpty)
    ensures !Blank(d.fileName) && !Blank(d.fileExtension) && !Blank(d.filepath) && d.userId == "" ==> e == Some(DocumentUserIdEmpty)
  {
    if Trim(d.fileName) == "" then Some(FileNameEmpty)
    else if Trim(d.fileExtension) == "" then Some(FileExtensionEmpty)
    else if Trim(d.filepath) == "" then Some(FilepathEmpty)
    else if d.userId == "" then Some(DocumentUserIdEmpty)
    else None
  }

  /** The constructor (and `DocumentFactory.create`): `id || uuidv4()`, then
      validation. A thrown validation error becomes a Failure. */
  function NewDocument(fileName: string, fileExtension: string, filepath: string, userId: string, id: string, freshId: string): (r: Either<string, Document>)
    ensures r.Ok? <==> !Blank(fileName) && !Blank(fileExtension) && !Blank(filepath) && userId != ""
    ensures r.Ok? ==> ValidDocument(r.value)
    ensures r.Ok? ==> r.value.fileName == fileName && r.value.fileExtension == fileExtension
                      && r.value.filepath == filepath && r.value.userId == userId
    ensures r.Ok? && id != "" ==> r.value.id == id
    ensures r.Ok? && id == "" ==> r.value.id == freshId
    ensures Blank(fileName) ==> r == Failure(FileNameEmpty)
    ensures !Blank(fileName) && Blank(fileExtension) ==> r == Failure(FileExtensionEmpty)
    ensures !Blank(fileName) && !Blank(fileExtension) && Blank(filepath) ==> r == Failure(FilepathEmpty)
    ensures !Blank(fileName) && !Blank(fileExtension) && !Blank(filepath) && userId == "" ==> r == Failure(DocumentUserIdEmpty)
  {
    var d := Document(OrElse(id, freshId), fileName, fileExtension, filepath, userId);
    match ValidateDocument(d)
    case Some(msg) => Failure(msg)
    case None => Ok(d)
  }

  /** `updateFilepath`: a blank path is rejected (the caller keeps the
      document it had); otherwise only the path changes. */
  function UpdateFilepath(d: Document, newFilepath: string): (r: Either<string, Document>)
    ensures r.Failure? <==> Blank(newFilepath)
    ensures r.Failure? ==> r.error == FilepathEmpty
    ensures r.Ok? ==> r.value.filepath == newFilepath
    ensures r.Ok? ==> r.value.id == d.id && r.value.fileName == d.fileName
                      && r.value.fileExtension == d.fileExtension && r.value.userId == d.userId
    ensures r.Ok? && ValidDocument(d) ==> ValidDocument(r.value)
  {
    if Trim(newFilepath) == "" then Failure(FilepathEmpty) else Ok(d.(filepath := newFilepath))
  }

  /** Whitespace-only user ids are accepted, unlike blank names. */
  lemma WhitespaceUserIdAccepted(fileName: string, fileExtension: string, filepath: string, id: string, freshId: string)
    requires !Blank(fileName) && !Blank(fileExtension) && !Blank(filepath)
    ensures NewDocument(fileName, fileExtension, filepath, " ", id, freshId).Ok?
    ensures NewDocument(fileName, fileExtension, filepath, "", id, freshId) == Failure(DocumentUserIdEmpty)
  {
  }
}

=== FILE: document_repository.dfy ===
/** `DocumentRepository`: documents, the get-or-create of tags by name, the
    document/tag join table, Owner-permission assignment and lookup, and the
    user-role lookup. Every operation takes `fail`, standing for the storage
    statement throwing; fresh uuids are parameters. */
module DocumentRepository {
  import opened Monads
  import opened Seqs
  import opened DocumentEntity
  import opened TagEntity
  import opened PermissionEntity
  import opened UserEntity
  import opened Storage
  import PermissionRepository
  import UserRepository

  const CreateDocumentFailed := "Failed to create document"
  const FetchDocumentFailed := "Failed to fetch document by ID"
  const NotFoundForDeletion := "Document not found for deletion"
  const DeleteDocumentFailed := "Failed to delete document"
  const FetchDocumentsFailed := "Failed to fetch Documents"
  const NotFoundForUpdate := "Document not found for update"
  const UpdateDocumentFailed := "Failed to update document"
  const AssignPermissionFailed := "Failed to assign permission"
  const GetOrCreateTagsFailed := "Failed to get or create tags"
  const PermissionNotFound := "Permission not found"
  const FetchPermissionFailed := "Failed to fetch user permissions"
  const LinkTagsFailed := "Failed to link document with tags"

  predicate HasDocument(table: seq<Document>, id: string) {
    exists i | 0 <= i < |table| :: table[i].id == id
  }

  /** `add`: inserts a row with a fresh id; the repository itself validates nothing. */
  function Add(table: seq<Document>, fileName: string, fileExtension: string, filepath: string, userId: string, id: string, fail: bool)
    : (r: (seq<Document>, Either<string, Document>))
    ensures fail ==> r == (table, Failure(CreateDocumentFailed))
    ensures !fail ==> r.1 == Ok(Document(id, fileName, fileExtension, filepath, userId))
    ensures !fail ==> |r.0| == |table| + 1 && r.0[..|table|] == table && r.0[|table|] == r.1.value
  {
    if fail then (table, Failure(CreateDocumentFailed))
    else
      var row := Document(id, fileName, fileExtension, filepath, userId);
      (table + [row], Ok(row))
  }

  /** `fetchById`: the first row with the id, or null when there is none. */
  function FetchById(table: seq<Document>, id: string, fail: bool): (r: Either<string, Option<Document>>)
    ensures fail ==> r == Failure(FetchDocumentFailed)
    ensures !fail ==> r.Ok? && (r.value.None? <==> !HasDocument(table, id))
    ensures r.Ok? && r.value.Some? ==> r.value.value in table && r.value.value.id == id
  {
    if fail then Failure(FetchDocumentFailed) else Ok(Find(table, (d: Document) => d.id == id))
  }

  /** `remove`: ok(true) when a row was deleted; "nothing deleted" is the
      Failure "Document not found for deletion", never ok(false). */
  function Remove(table: seq<Document>, id: string, fail: bool): (r: (seq<Document>, Either<string, bool>))
    ensures fail ==> r == (table, Failure(DeleteDocumentFailed))
    ensures !fail ==> (r.1 == Ok(true) <==> HasDocument(table, id))
    ensures !fail && !HasDocument(table, id) ==> r == (table, Failure(NotFoundForDeletion))
    ensures r.1 != Ok(false)
    ensures !fail ==> forall i | 0 <= i < |r.0| :: r.0[i] in table && r.0[i].id != id
    ensures !fail ==> forall i | 0 <= i < |table| :: table[i].id != id ==> table[i] in r.0
  {
    if fail then (table, Failure(DeleteDocumentFailed))
    else
      var kept := Filter(table, (d: Document) => d.id != id);
      if |table| - |kept| > 0 then (kept, Ok(true)) else (table, Failure(NotFoundForDeletion))
  }

  /** `fetchAll`: every row, in table order. */
  function FetchAll(table: seq<Document>, fail: bool): (r: Either<string, seq<Document>>)
    ensures fail ==> r == Failure(FetchDocumentsFailed)
    ensures !fail ==> r == Ok(table)
  {
    if fail then Failure(FetchDocumentsFailed) else Ok(table)
  }

  /** The `SET` of `update`: an omitted (undefined) field is left as it is. */
  function Patch(d: Document, fileName: Option<string>, fileExtension: Option<string>, filepath: Option<string>): Document {
    d.(fileName := if fileName.Some? then fileName.value else d.fileName,
       fileExtension := if fileExtension.Some? then fileExtension.value else d.fileExtension,
       filepath := if filepath.Some? then filepath.value else d.filepath)
  }

  /** `update`: patches the row(s) with the id and returns the updated row;
      "Document not found for update" when no row has it. The owner's
      `userId` is never touched. */
  function Update(table: seq<Document>, id: string, fileName: Option<string>, fileExtension: Option<string>, filepath: Option<string>, fail: bool)
    : (r: (seq<Document>, Either<string, Document>))
    ensures fail ==> r == (table, Failure(UpdateDocumentFailed))
    ensures !fail && !HasDocument(table, id) ==> r == (table, Failure(NotFoundForUpdate))
    ensures !fail ==> |r.0| == |table|
    ensures !fail ==> forall i | 0 <= i < |table| ::
      r.0[i] == (if table[i].id == id then Patch(table[i], fileName, fileExtension, filepath) else table[i])
    ensures r.1.Ok? ==> r.1.value in r.0 && exists i | 0 <= i < |table| ::
      table[i].id == id && r.1.value == Patch(table[i], fileName, fileExtension, filepath)
    ensures r.1.Ok? ==> r.1.value.id == id
  {
    if fail then (table, Failure(UpdateDocumentFailed))
    else
      var updated := UpdateWhere(table, (d: Document) => d.id == id, (d: Document) => Patch(d, fileName, fileExtension, filepath));
      match FindIndex(table, (d: Document) => d.id == id)
      case None =>
        assert updated == table;
        (table, Failure(NotFoundForUpdate))
      case Some(k) => (updated, Ok(updated[k]))
  }

  /** `assignPermission`: inserts a permission row as given. */
  function AssignPermission(table: seq<Permission>, documentId: string, userId: string, permissionType: string, id: string, fail: bool)
    : (r: (seq<Permission>, Either<string, Permission>))
    ensures fail ==> r == (table, Failure(AssignPermissionFailed))
    ensures !fail ==> r.1 == Ok(Permission(id, documentId, userId, permissionType))
    ensures !fail ==> |r.0| == |table| + 1 && r.0[..|table|] == table && r.0[|table|] == r.1.value
  {
    if fail then (table, Failure(AssignPermissionFailed))
    else
      var row := Permission(id, documentId, userId, permissionType);
      (table + [row], Ok(row))
  }

  /** Some tag of `ts` carries the name. */
  predicate NameTaken(ts: seq<Tag>, name: string) {
    exists i | 0 <= i < |ts| :: ts[i].name == name
  }

  /** The stored tags whose name was requested, in table order. */
  function ExistingMatches(table: seq<Tag>, names: seq<string>): seq<Tag> {
    Filter(table, (t: Tag) => t.name in names)
  }

  /** The requested names no stored tag carries (duplicates kept). */
  function MissingNames(table: seq<Tag>, names: seq<string>): seq<string> {
    Filter(names, (n: string) => !NameTaken(ExistingMatches(table, names), n))
  }

  /** One fresh tag per missing name; the k-th gets id `newId(k)`. */
  function CreatedTags(names: seq<string>, newId: nat -> string): (r: seq<Tag>)
    ensures |r| == |names|
    ensures forall i | 0 <= i < |names| :: r[i] == Tag(newId(i), names[i])
  {
    seq(|names|, i requires 0 <= i < |names| => Tag(newId(i), names[i]))
  }

  /** `getOrCreateTags`: the stored tags with a requested name, followed by
      freshly inserted tags for the requested names that no stored tag has.
      The inserts run concurrently and outside a transaction, so when one of
      them fails any subset of the others may stay in the table; the model
      represents the subsets that are prefixes: the first `landed` inserts
      (never all of them) stay. */
  function GetOrCreateTags(table: seq<Tag>, names: seq<string>, newId: nat -> string, fail: bool, landed: nat)
    : (r: (seq<Tag>, Either<string, seq<Tag>>))
    requires |names| > 0
    ensures fail ==> r.1 == Failure(GetOrCreateTagsFailed)
    ensures !fail ==> r.1.Ok?
    ensures fail ==> |table| <= |r.0| <= |table| + landed
    ensures fail ==> |r.0| - |table| < |MissingNames(table, names)| || r.0 == table
    ensures fail && landed < |MissingNames(table, names)| ==> |r.0| == |table| + landed
    ensures fail ==> r.0 == table + CreatedTags(MissingNames(table, names), newId)[..|r.0| - |table|]
  {
    var created := CreatedTags(MissingNames(table, names), newId);
    if fail then
      var kept := if |created| == 0 then 0 else if landed < |created| then landed else |created| - 1;
      (table + created[..kept], Failure(GetOrCreateTagsFailed))
    else
      (table + created, Ok(ExistingMatches(table, names) + created))
  }

  /** Every tag `getOrCreateTags` returns is in the table afterwards. */
  lemma GetOrCreateTagsStored(table: seq<Tag>, names: seq<string>, newId: nat -> string, landed: nat)
    requires |names| > 0
    ensures var r := GetOrCreateTags(table, names, newId, false, landed);
      forall i | 0 <= i < |r.1.value| :: r.1.value[i] in r.0
  {
    var existing := ExistingMatches(table, names);
    var created := CreatedTags(MissingNames(table, names), newId);
    var r := GetOrCreateTags(table, names, newId, false, landed);
    assert r == (table + created, Ok(existing + created));
    forall i | 0 <= i < |r.1.value|
      ensures r.1.value[i] in r.0
    {
      if i < |existing| {
        assert existing[i] in table;
      } else {
        assert r.1.value[i] == created[i - |existing|] == r.0[|table| + i - |existing|];
      }
    }
  }

  /** A requested name carried by a stored tag is carried by one of the matches. */
  lemma TakenStaysTaken(table: seq<Tag>, names: seq<string>, n: string)
    requires n in names
    ensures NameTaken(table, n) ==> NameTaken(ExistingMatches(table, names), n)
  {
    if NameTaken(table, n) {
      var existing := ExistingMatches(table, names);
      var i :| 0 <= i < |table| && table[i].name == n;
      assert table[i] in existing;
      var e :| 0 <= e < |existing| && existing[e] == table[i];
    }
  }

  /** `getOrCreateTags` only appends to the table, and what it appends is the
      tail of its result. */
  lemma GetOrCreateTagsAppends(table: seq<Tag>, names: seq<string>, newId: nat -> string)
    requires |names| > 0
    ensures var r := GetOrCreateTags(table, names, newId, false, 0);
      && r.1.Ok? && |r.0| >= |table| && r.0[..|table|] == table
      && r.1.value == ExistingMatches(table, names) + r.0[|table|..]
  {
    var created := CreatedTags(MissingNames(table, names), newId);
    var r := GetOrCreateTags(table, names, newId, false, 0);
    assert r.0 == table + created;
    assert r.0[|table|..] == created;
  }

  /** Every appended tag carries a requested name that no stored tag had. */
  lemma GetOrCreateTagsCreatesOnlyMissing(table: seq<Tag>, names: seq<string>, newId: nat -> string)
    requires |names| > 0
    ensures var t := GetOrCreateTags(table, names, newId, false, 0).0;
      forall j | |table| <= j < |t| :: t[j].name in names && !NameTaken(table, t[j].name)
  {
    var existing := ExistingMatches(table, names);
    var missing := MissingNames(table, names);
    var created := CreatedTags(missing, newId);
    var t := GetOrCreateTags(table, names, newId, false, 0).0;
    assert t == table + created;
    forall j | |table| <= j < |t|
      ensures t[j].name in names && !NameTaken(table, t[j].name)
    {
      var k := j - |table|;
      assert t[j] == created[k];
      var n := missing[k];
      assert n in names && !NameTaken(existing, n);
      TakenStaysTaken(table, names, n);
    }
  }

  /** One requested name is the name of a returned tag. */
  lemma GetOrCreateTagsCoversName(table: seq<Tag>, names: seq<string>, newId: nat -> string, n: string)
    requires n in names
    requires |names| > 0
    ensures NameTaken(ExistingMatches(table, names) + CreatedTags(MissingNames(table, names), newId), n)
  {
    var existing := ExistingMatches(table, names);
    var missing := MissingNames(table, names);
    var created := CreatedTags(missing, newId);
    var tags := existing + created;
    if NameTaken(existing, n) {
      var i :| 0 <= i < |existing| && existing[i].name == n;
      assert tags[i] == existing[i];
    } else {
      var p :| 0 <= p < |names| && names[p] == n;
      assert names[p] in missing;
      var k :| 0 <= k < |missing| && missing[k] == n;
      assert tags[|existing| + k] == created[k];
    }
  }

  /** Every requested name is the name of a returned tag. */
  lemma GetOrCreateTagsCoversNames(table: seq<Tag>, names: seq<string>, newId: nat -> string)
    requires |names| > 0
    ensures var r := GetOrCreateTags(table, names, newId, false, 0).1;
      r.Ok? && forall n | n in names :: NameTaken(r.value, n)
  {
    forall n | n in names
      ensures NameTaken(GetOrCreateTags(table, names, newId, false, 0).1.value, n)
    {
      GetOrCreateTagsCoversName(table, names, newId, n);
    }
  }

  /** A non-empty request never yields an empty tag list. */
  lemma GetOrCreateTagsNonEmpty(table: seq<Tag>, names: seq<string>, newId: nat -> string)
    requires |names| > 0
    ensures |GetOrCreateTags(table, names, newId, false, 0).1.value| > 0
  {
    GetOrCreateTagsCoversName(table, names, newId, names[0]);
  }

  /** Every returned tag carries a requested name. */
  lemma GetOrCreateTagsOnlyRequested(table: seq<Tag>, names: seq<string>, newId: nat -> string)
    requires |names| > 0
    ensures var r := GetOrCreateTags(table, names, newId, false, 0).1;
      r.Ok? && forall i | 0 <= i < |r.value| :: r.value[i].name in names
  {
    var existing := ExistingMatches(table, names);
    var missing := MissingNames(table, names);
    var created := CreatedTags(missing, newId);
    var tags := existing + created;
    assert GetOrCreateTags(table, names, newId, false, 0).1 == Ok(tags);
    forall i | 0 <= i < |tags|
      ensures tags[i].name in names
    {
      if i < |existing| {
        assert tags[i] == existing[i];
      } else {
        var k := i - |existing|;
        assert tags[i] == created[k];
        assert missing[k] in names;
      }
    }
  }

  /** Every stored tag with a requested name is returned. */
  lemma GetOrCreateTagsKeepsMatches(table: seq<Tag>, names: seq<string>, newId: nat -> string)
    requires |names| > 0
    ensures var r := GetOrCreateTags(table, names, newId, false, 0).1;
      r.Ok? && forall i | 0 <= i < |table| :: table[i].name in names ==> table[i] in r.value
  {
    var existing := ExistingMatches(table, names);
    var missing := MissingNames(table, names);
    var created := CreatedTags(missing, newId);
    var tags := existing + created;
    assert GetOrCreateTags(table, names, newId, false, 0).1 == Ok(tags);
    forall i | 0 <= i < |table| && table[i].name in names
      ensures table[i] in tags
    {
      assert table[i] in existing;
      var e :| 0 <= e < |existing| && existing[e] == table[i];
      assert tags[e] == existing[e];
    }
  }

  /** `after` is `before` followed by one link from the document to each of
      `tags`, in order. */
  predicate AppendsLinks(before: seq<DocumentTag>, after: seq<DocumentTag>, documentId: string, tags: seq<Tag>) {
    && |after| == |before| + |tags| && after[..|before|] == before
    && forall i | 0 <= i < |tags| :: after[|before| + i] == DocumentTag(documentId, tags[i].id)
  }

  /** `linkDocumentWithTags`: one (documentId, tag.id) row per tag, appended
      in order. */
  function LinkDocumentWithTags(links: seq<DocumentTag>, documentId: string, tags: seq<Tag>, fail: bool)
    : (r: (seq<DocumentTag>, Either<string, bool>))
    requires |tags| > 0
    ensures fail ==> r == (links, Failure(LinkTagsFailed))
    ensures !fail ==> r.1 == Ok(true)
    ensures !fail ==> |r.0| == |links| + |tags| && r.0[..|links|] == links
    ensures !fail ==> forall i | 0 <= i < |tags| :: r.0[|links| + i] == DocumentTag(documentId, tags[i].id)
  {
    if fail then (links, Failure(LinkTagsFailed))
    else (links + seq(|tags|, i requires 0 <= i < |tags| => DocumentTag(documentId, tags[i].id)), Ok(true))
  }

  /** `fetchUserPermission`: "Owner" when an Owner row for the pair exists,
      otherwise the Failure "Permission not found". */
  function FetchUserPermission(table: seq<Permission>, documentId: string, userId: string, fail: bool): (r: Either<string, string>)
    ensures fail ==> r == Failure(FetchPermissionFailed)
    ensures !fail ==> (r == Ok(Owner) <==> PermissionRepository.HasOwnerRow(table, documentId, userId))
    ensures !fail && r != Ok(Owner) ==> r == Failure(PermissionNotFound)
    ensures r.Ok? ==> r.value == Owner
  {
    if fail then Failure(FetchPermissionFailed)
    else
      var rows := Filter(table, (p: Permission) => PermissionRepository.IsOwnerRow(p, documentId, userId));
      if |rows| == 0 then Failure(PermissionNotFound)
      else
        assert rows[0] in table;
        Ok(rows[0].permissionType)
  }

  /** `fetchUserRole`: identical to the user repository's query. */
  function FetchUserRole(users: seq<User>, userId: string, fail: bool): (r: Either<string, string>)
    ensures fail ==> r == Failure(UserRepository.FetchRoleFailed)
    ensures !fail && !UserRepository.HasUser(users, userId) ==> r == Ok("")
    ensures !fail && UserRepository.HasUser(users, userId) ==> r == Ok(UserRepository.FirstWithId(users, userId).role)
  {
    UserRepository.FetchUserRole(users, userId, fail)
  }
}

=== FILE: document_service.dfy ===
/** `DocumentService`: creating a document (row, tags, links, Owner
    permission), owner-only update and delete, and paging. Each service call
    is a transition of the whole `Store`; the set `faults` names the storage
    calls that throw, and the uuids the calls would mint are parameters. The
    steps of `createDocument` are not rolled back when a later one fails. */
module DocumentService {
  import opened Monads
  import opened Text
  import opened Paging
  import opened DocumentEntity
  import opened TagEntity
  import opened PermissionEntity
  import opened Storage
  import DocumentRepository
  import PermissionRepository

  const RetrieveTagsFailed := "Failed to retrieve or create tags"
  const DocumentNotFound := "Document not found"
  const OnlyOwnerCanUpdate := "Only the owner can update this document"
  const OnlyOwnerCanDelete := "Only the owner can delete this document"
  const RenameFailed := "Failed to rename file"
  const DeleteFailed := "Failed to delete document"

  /** The success value of `createDocument`. */
  datatype Created = Created(document: Document, tags: seq<Tag>)

  /** The file rename `updateDocument` performs on disk. */
  datatype FileMove = FileMove(from: string, to: string)

  /** Where an upload lives: `<uploads>/<fileName>.<fileExtension>`. */
  function UploadPath(uploadRoot: string, fileName: string, fileExtension: string): string {
    uploadRoot + "/" + fileName + "." + fileExtension
  }

  /** `x || fallback` for an optional request field: undefined and "" fall back. */
  function Given(x: Option<string>, fallback: string): string {
    if x.Some? then OrElse(x.value, fallback) else fallback
  }

  /** The owner check of update and delete: the permission query must succeed
      with the type "Owner". */
  predicate OwnerCheckPasses(perms: seq<Permission>, documentId: string, userId: string, faults: set<Op>) {
    var p := DocumentRepository.FetchUserPermission(perms, documentId, userId, PermissionFetch in faults);
    p.Ok? && p.value == Owner
  }

  /** The owner check in terms of the permission table. */
  lemma OwnerCheckMeansOwnerRow(perms: seq<Permission>, documentId: string, userId: string, faults: set<Op>)
    ensures OwnerCheckPasses(perms, documentId, userId, faults) <==>
      PermissionFetch !in faults && PermissionRepository.HasOwnerRow(perms, documentId, userId)
  {
  }

  /** Step 5 of `createDocument`: build the Owner permission (the constructor
      rejects a blank document or user id) and insert it. The row gets the
      repository's own fresh id, `permId`. */
  function GrantOwner(s: Store, doc: Document, tags: seq<Tag>, userId: string, faults: set<Op>, permId: string)
    : (r: (Store, Either<string, Created>))
    ensures NewPermission(doc.id, userId, Owner, "", permId).Failure? ==>
      r == (s, Failure(NewPermission(doc.id, userId, Owner, "", permId).error))
    ensures NewPermission(doc.id, userId, Owner, "", permId).Ok? && PermissionAssign in faults ==>
      r == (s, Failure(DocumentRepository.AssignPermissionFailed))
    ensures r.1.Ok? <==> !Blank(doc.id) && !Blank(userId) && PermissionAssign !in faults
    ensures r.1.Ok? ==> r.1.value == Created(doc, tags)
    ensures r.1.Ok? ==> r.0 == s.(permissions := s.permissions + [Permission(permId, doc.id, userId, Owner)])
  {
    match NewPermission(doc.id, userId, Owner, "", permId)
    case Failure(e) => (s, Failure(e))
    case Ok(owner) =>
      var granted := DocumentRepository.AssignPermission(s.permissions, owner.documentId, owner.userId, owner.permissionType, permId,
                                                         PermissionAssign in faults);
      if granted.1.Failure? then (s, Failure(DocumentRepository.AssignPermissionFailed))
      else (s.(permissions := granted.0), Ok(Created(doc, tags)))
  }

  /** Steps 4 and 5 of `createDocument`: link the tags, then grant ownership.
      A failed grant keeps the links. */
  function LinkAndGrant(s: Store, doc: Document, tags: seq<Tag>, userId: string, faults: set<Op>, permId: string)
    : (r: (Store, Either<string, Created>))
    requires |tags| > 0
    ensures r.0.documents == s.documents && r.0.tags == s.tags && r.0.users == s.users
    ensures TagsLink in faults ==> r == (s, Failure(DocumentRepository.LinkTagsFailed))
    ensures TagsLink !in faults ==> DocumentRepository.AppendsLinks(s.documentTags, r.0.documentTags, doc.id, tags)
    ensures TagsLink !in faults && NewPermission(doc.id, userId, Owner, "", permId).Failure? ==>
      r.1 == Failure(NewPermission(doc.id, userId, Owner, "", permId).error) && r.0.permissions == s.permissions
    ensures TagsLink !in faults && NewPermission(doc.id, userId, Owner, "", permId).Ok? && PermissionAssign in faults ==>
      r.1 == Failure(DocumentRepository.AssignPermissionFailed) && r.0.permissions == s.permissions
    ensures r.1.Ok? <==> TagsLink !in faults && !Blank(doc.id) && !Blank(userId) && PermissionAssign !in faults
    ensures r.1.Ok? ==> r.1.value == Created(doc, tags)
    ensures r.1.Ok? ==> r.0.permissions == s.permissions + [Permission(permId, doc.id, userId, Owner)]
  {
    var linked := DocumentRepository.LinkDocumentWithTags(s.documentTags, doc.id, tags, TagsLink in faults);
    if linked.1.Failure? then (s, Failure(DocumentRepository.LinkTagsFailed))
    else GrantOwner(s.(documentTags := linked.0), doc, tags, userId, faults, permId)
  }

  /** Steps 3 to 5 of `createDocument`, once the row `doc` is stored: get or
      create the tags, then link them and grant ownership. */
  function TagLinkAndGrant(s: Store, doc: Document, tagNames: seq<string>, userId: string, faults: set<Op>, permId: string,
                           tagId: nat -> string, tagsLanded: nat)
    : (r: (Store, Either<string, Created>))
    requires |tagNames| > 0
    ensures r.0.documents == s.documents && r.0.users == s.users
    ensures TagsGetOrCreate in faults ==>
      r == (s.(tags := DocumentRepository.GetOrCreateTags(s.tags, tagNames, tagId, true, tagsLanded).0), Failure(RetrieveTagsFailed))
    ensures TagsGetOrCreate !in faults && TagsLink in faults ==>
      r == (s.(tags := DocumentRepository.GetOrCreateTags(s.tags, tagNames, tagId, false, tagsLanded).0),
            Failure(DocumentRepository.LinkTagsFailed))
    ensures TagsGetOrCreate !in faults && TagsLink !in faults && NewPermission(doc.id, userId, Owner, "", permId).Failure? ==>
      && r.1 == Failure(NewPermission(doc.id, userId, Owner, "", permId).error)
      && r.0.tags == DocumentRepository.GetOrCreateTags(s.tags, tagNames, tagId, false, tagsLanded).0
      && DocumentRepository.AppendsLinks(s.documentTags, r.0.documentTags, doc.id, DocumentRepository.GetOrCreateTags(s.tags, tagNames, tagId, false, tagsLanded).1.value)
      && r.0.permissions == s.permissions
    ensures TagsGetOrCreate !in faults && TagsLink !in faults && NewPermission(doc.id, userId, Owner, "", permId).Ok?
            && PermissionAssign in faults ==>
      && r.1 == Failure(DocumentRepository.AssignPermissionFailed)
      && r.0.tags == DocumentRepository.GetOrCreateTags(s.tags, tagNames, tagId, false, tagsLanded).0
      && DocumentRepository.AppendsLinks(s.documentTags, r.0.documentTags, doc.id, DocumentRepository.GetOrCreateTags(s.tags, tagNames, tagId, false, tagsLanded).1.value)
      && r.0.permissions == s.permissions
    ensures r.1.Ok? <==>
      TagsGetOrCreate !in faults && TagsLink !in faults && PermissionAssign !in faults && !Blank(doc.id) && !Blank(userId)
    ensures r.1.Ok? ==> r.1.value.document == doc
    ensures r.1.Ok? ==> r.1.value.tags == DocumentRepository.GetOrCreateTags(s.tags, tagNames, tagId, false, tagsLanded).1.value && r.0.tags == DocumentRepository.GetOrCreateTags(s.tags, tagNames, tagId, false, tagsLanded).0
    ensures r.1.Ok? ==> r.0.permissions == s.permissions + [Permission(permId, doc.id, userId, Owner)]
    ensures r.1.Ok? ==> DocumentRepository.AppendsLinks(s.documentTags, r.0.documentTags, doc.id, r.1.value.tags)
  {
    DocumentRepository.GetOrCreateTagsNonEmpty(s.tags, tagNames, tagId);
    var got := DocumentRepository.GetOrCreateTags(s.tags, tagNames, tagId, TagsGetOrCreate in faults, tagsLanded);
    var s2 := s.(tags := got.0);
    if got.1.Failure? then (s2, Failure(RetrieveTagsFailed))
    else LinkAndGrant(s2, doc, got.1.value, userId, faults, permId)
  }

  /** `createDocument`: validate the entity, insert the row, get or create the
      tags, link them, and record the creator as Owner. Each step's failure
      ends the call with its own message and keeps what earlier steps wrote;
      `tagsLanded` is how many tag inserts went through when the tag step
      fails. */
  function CreateDocument(store: Store, fileName: string, fileExtension: string, filepath: string, userId: string,
                          tagNames: seq<string>, faults: set<Op>, docId: string, permId: string, tagId: nat -> string, tagsLanded: nat)
    : (r: (Store, Either<string, Created>))
    requires |tagNames| > 0
    ensures !ValidDocument(Document(docId, fileName, fileExtension, filepath, userId)) ==>
      r.0 == store && r.1 == Failure(ValidateDocument(Document(docId, fileName, fileExtension, filepath, userId)).value)
    ensures ValidDocument(Document(docId, fileName, fileExtension, filepath, userId)) && DocumentAdd in faults ==>
      r.0 == store && r.1 == Failure(DocumentRepository.CreateDocumentFailed)
    ensures ValidDocument(Document(docId, fileName, fileExtension, filepath, userId)) && DocumentAdd !in faults && TagsGetOrCreate in faults ==>
      && r.1 == Failure(RetrieveTagsFailed)
      && r.0 == store.(documents := store.documents + [Document(docId, fileName, fileExtension, filepath, userId)],
                       tags := DocumentRepository.GetOrCreateTags(store.tags, tagNames, tagId, true, tagsLanded).0)
    ensures ValidDocument(Document(docId, fileName, fileExtension, filepath, userId)) && DocumentAdd !in faults && TagsGetOrCreate !in faults
            && TagsLink in faults ==>
      && r.1 == Failure(DocumentRepository.LinkTagsFailed)
      && r.0 == store.(documents := store.documents + [Document(docId, fileName, fileExtension, filepath, userId)],
                       tags := DocumentRepository.GetOrCreateTags(store.tags, tagNames, tagId, false, tagsLanded).0)
    ensures ValidDocument(Document(docId, fileName, fileExtension, filepath, userId)) && DocumentAdd !in faults && TagsGetOrCreate !in faults
            && TagsLink !in faults && (Blank(docId) || Blank(userId)) ==>
      && r.1 == Failure(if Blank(docId) then DocumentIdEmpty else PermissionUserIdEmpty)
      && r.0.documents == store.documents + [Document(docId, fileName, fileExtension, filepath, userId)]
      && r.0.tags == DocumentRepository.GetOrCreateTags(store.tags, tagNames, tagId, false, tagsLanded).0
      && DocumentRepository.AppendsLinks(store.documentTags, r.0.documentTags, docId, DocumentRepository.GetOrCreateTags(store.tags, tagNames, tagId, false, tagsLanded).1.value)
      && r.0.permissions == store.permissions
    ensures ValidDocument(Document(docId, fileName, fileExtension, filepath, userId)) && DocumentAdd !in faults && TagsGetOrCreate !in faults
            && TagsLink !in faults && !Blank(docId) && !Blank(userId) && PermissionAssign in faults ==>
      && r.1 == Failure(DocumentRepository.AssignPermissionFailed)
      && r.0.documents == store.documents + [Document(docId, fileName, fileExtension, filepath, userId)]
      && r.0.tags == DocumentRepository.GetOrCreateTags(store.tags, tagNames, tagId, false, tagsLanded).0
      && DocumentRepository.AppendsLinks(store.documentTags, r.0.documentTags, docId, DocumentRepository.GetOrCreateTags(store.tags, tagNames, tagId, false, tagsLanded).1.value)
      && r.0.permissions == store.permissions
    ensures r.1.Ok? <==>
      && ValidDocument(Document(docId, fileName, fileExtension, filepath, userId)) && !Blank(docId) && !Blank(userId)
      && DocumentAdd !in faults && TagsGetOrCreate !in faults && TagsLink !in faults && PermissionAssign !in faults
    ensures r.1.Failure? ==> r.1.error != ""
    ensures r.1.Ok? ==> r.1.value.document == Document(docId, fileName, fileExtension, filepath, userId)
    ensures r.1.Ok? ==> r.1.value.tags == DocumentRepository.GetOrCreateTags(store.tags, tagNames, tagId, false, tagsLanded).1.value && r.0.tags == DocumentRepository.GetOrCreateTags(store.tags, tagNames, tagId, false, tagsLanded).0
    ensures r.1.Ok? ==> ValidDocument(r.1.value.document)
    ensures r.1.Ok? ==> r.0.documents == store.documents + [r.1.value.document]
    ensures r.1.Ok? ==> r.0.permissions == store.permissions + [Permission(permId, docId, userId, Owner)]
    ensures r.1.Ok? ==> DocumentRepository.AppendsLinks(store.documentTags, r.0.documentTags, docId, r.1.value.tags)
    ensures r.0.users == store.users
  {
    match NewDocument(fileName, fileExtension, filepath, userId, "", docId)
    case Failure(e) => (store, Failure(e))
    case Ok(_) =>
      var added := DocumentRepository.Add(store.documents, fileName, fileExtension, filepath, userId, docId, DocumentAdd in faults);
      if added.1.Failure? then (store, Failure(DocumentRepository.CreateDocumentFailed))
      else
        var doc := added.1.value;
        assert doc == Document(docId, fileName, fileExtension, filepath, userId) && added.0 == store.documents + [doc];
        TagLinkAndGrant(store.(documents := added.0), doc, tagNames, userId, faults, permId, tagId, tagsLanded)
  }

  /** Nothing is rolled back: when only the permission insert fails, the
      document row and its tag links stay, but nobody owns the document. */
  lemma CreateWithoutOwnerLeavesOrphan(store: Store, fileName: string, fileExtension: string, filepath: string, userId: string,
                                       tagNames: seq<string>, docId: string, permId: string, tagId: nat -> string)
    requires ValidDocument(Document(docId, fileName, fileExtension, filepath, userId))
    requires !Blank(docId) && !Blank(userId)
    requires |tagNames| > 0
    ensures var r := CreateDocument(store, fileName, fileExtension, filepath, userId, tagNames, {PermissionAssign}, docId, permId, tagId, 0);
      && r.1 == Failure(DocumentRepository.AssignPermissionFailed)
      && r.0.documents == store.documents + [Document(docId, fileName, fileExtension, filepath, userId)]
      && r.0.tags == DocumentRepository.GetOrCreateTags(store.tags, tagNames, tagId, false, 0).0
      && DocumentRepository.AppendsLinks(store.documentTags, r.0.documentTags, docId, DocumentRepository.GetOrCreateTags(store.tags, tagNames, tagId, false, 0).1.value)
      && r.0.permissions == store.permissions
  {
    var faults := {PermissionAssign};
    assert DocumentAdd !in faults && TagsGetOrCreate !in faults && TagsLink !in faults && PermissionAssign in faults;
    var r := CreateDocument(store, fileName, fileExtension, filepath, userId, tagNames, faults, docId, permId, tagId, 0);
    assert r.1 == Failure(DocumentRepository.AssignPermissionFailed);
  }

  /** A blank user id passes the document entity, which only refuses "", but
      not the Owner permission built after the row, the tags and the links
      are written: the call fails with the permission's message and leaves
      an unowned document behind. */
  lemma BlankCreatorLeavesOrphan(store: Store, fileName: string, fileExtension: string, filepath: string,
                                 tagNames: seq<string>, docId: string, permId: string, tagId: nat -> string)
    requires ValidDocument(Document(docId, fileName, fileExtension, filepath, " "))
    requires !Blank(docId)
    requires |tagNames| > 0
    ensures var r := CreateDocument(store, fileName, fileExtension, filepath, " ", tagNames, {}, docId, permId, tagId, 0);
      && r.1 == Failure(PermissionUserIdEmpty)
      && r.0.documents == store.documents + [Document(docId, fileName, fileExtension, filepath, " ")]
      && r.0.tags == DocumentRepository.GetOrCreateTags(store.tags, tagNames, tagId, false, 0).0
      && DocumentRepository.AppendsLinks(store.documentTags, r.0.documentTags, docId, DocumentRepository.GetOrCreateTags(store.tags, tagNames, tagId, false, 0).1.value)
      && r.0.permissions == store.permissions
  {
    assert Blank(" ");
  }

  /** After a successful create, every requested name is carried by a stored
      tag that is linked to the new document. */
  lemma CreatedDocumentCarriesEveryName(store: Store, fileName: string, fileExtension: string, filepath: string, userId: string,
                                        tagNames: seq<string>, faults: set<Op>, docId: string, permId: string, tagId: nat -> string,
                                        tagsLanded: nat, n: string)
    requires |tagNames| > 0
    requires n in tagNames
    ensures var r := CreateDocument(store, fileName, fileExtension, filepath, userId, tagNames, faults, docId, permId, tagId, tagsLanded);
      r.1.Ok? ==> exists t | t in r.0.tags :: t.name == n && DocumentTag(docId, t.id) in r.0.documentTags
  {
    var r := CreateDocument(store, fileName, fileExtension, filepath, userId, tagNames, faults, docId, permId, tagId, tagsLanded);
    if r.1.Ok? {
      var g := DocumentRepository.GetOrCreateTags(store.tags, tagNames, tagId, false, tagsLanded);
      assert g == DocumentRepository.GetOrCreateTags(store.tags, tagNames, tagId, false, 0);
      DocumentRepository.GetOrCreateTagsCoversNames(store.tags, tagNames, tagId);
      DocumentRepository.GetOrCreateTagsStored(store.tags, tagNames, tagId, tagsLanded);
      LinkedTagCarriesName(r.0.tags, store.documentTags, r.0.documentTags, docId, r.1.value.tags, n);
    }
  }

  /** A name carried by one of the linked tags, all of them stored, is carried
      by a stored tag linked to the document. */
  lemma LinkedTagCarriesName(table: seq<Tag>, before: seq<DocumentTag>, after: seq<DocumentTag>, docId: string, tags: seq<Tag>, n: string)
    requires DocumentRepository.AppendsLinks(before, after, docId, tags)
    requires forall i | 0 <= i < |tags| :: tags[i] in table
    requires DocumentRepository.NameTaken(tags, n)
    ensures exists t | t in table :: t.name == n && DocumentTag(docId, t.id) in after
  {
    var i :| 0 <= i < |tags| && tags[i].name == n;
    assert after[|before| + i] == DocumentTag(docId, tags[i].id);
    assert tags[i] in table;
  }

  /** `fetchDocumentById`: the repository lookup, unchanged. */
  function FetchDocumentById(store: Store, id: string, faults: set<Op>): (r: Either<string, Option<Document>>)
    ensures r.Failure? <==> DocumentFetchById in faults
    ensures r.Failure? ==> r.error == DocumentRepository.FetchDocumentFailed
    ensures r.Ok? ==> (r.value.None? <==> !DocumentRepository.HasDocument(store.documents, id))
    ensures r.Ok? && r.value.Some? ==> r.value.value in store.documents && r.value.value.id == id
  {
    DocumentRepository.FetchById(store.documents, id, DocumentFetchById in faults)
  }

  /** The first two steps of `updateDocument`: the document must exist (a
      failed lookup reads as "not found") and the caller must own it. */
  function UpdateTarget(store: Store, userId: string, id: string, faults: set<Op>): (r: Either<string, Document>)
    ensures DocumentFetchById in faults || !DocumentRepository.HasDocument(store.documents, id) ==> r == Failure(DocumentNotFound)
    ensures (DocumentFetchById !in faults && DocumentRepository.HasDocument(store.documents, id)
             && !OwnerCheckPasses(store.permissions, id, userId, faults)) ==> r == Failure(OnlyOwnerCanUpdate)
    ensures r.Ok? <==> DocumentFetchById !in faults && DocumentRepository.HasDocument(store.documents, id)
                       && OwnerCheckPasses(store.permissions, id, userId, faults)
    ensures r.Ok? ==> r.value in store.documents && r.value.id == id
  {
    match DocumentRepository.FetchById(store.documents, id, DocumentFetchById in faults)
    case Failure(_) => Failure(DocumentNotFound)
    case Ok(None) => Failure(DocumentNotFound)
    case Ok(Some(existing)) =>
      if !OwnerCheckPasses(store.permissions, id, userId, faults) then Failure(OnlyOwnerCanUpdate) else Ok(existing)
  }

  /** The entity the update builds: each requested field, or the existing one
      when the request leaves it out or empty, stored at the matching path. */
  function Revised(existing: Document, fileName: Option<string>, fileExtension: Option<string>, uploadRoot: string): (d: Document)
    ensures d.id == existing.id && d.userId == existing.userId
    ensures d.filepath == UploadPath(uploadRoot, d.fileName, d.fileExtension)
    ensures fileName.Some? && fileName.value != "" ==> d.fileName == fileName.value
    ensures !(fileName.Some? && fileName.value != "") ==> d.fileName == existing.fileName
    ensures fileExtension.Some? && fileExtension.value != "" ==> d.fileExtension == fileExtension.value
    ensures !(fileExtension.Some? && fileExtension.value != "") ==> d.fileExtension == existing.fileExtension
  {
    var name := Given(fileName, existing.fileName);
    var ext := Given(fileExtension, existing.fileExtension);
    Document(existing.id, name, ext, UploadPath(uploadRoot, name, ext), existing.userId)
  }

  /** The rename on disk, when the path changes. */
  function Move(existing: Document, revised: Document, uploadRoot: string): (m: Option<FileMove>)
    ensures m.Some? <==> UploadPath(uploadRoot, existing.fileName, existing.fileExtension) != revised.filepath
    ensures m.Some? ==> m.value == FileMove(UploadPath(uploadRoot, existing.fileName, existing.fileExtension), revised.filepath)
  {
    var oldPath := UploadPath(uploadRoot, existing.fileName, existing.fileExtension);
    if oldPath != revised.filepath then Some(FileMove(oldPath, revised.filepath)) else None
  }

  /** The repository update that ends `updateDocument`. */
  function Commit(store: Store, revised: Document, faults: set<Op>): (r: (Store, Either<string, Document>))
    ensures r.0 == store.(documents := r.0.documents)
    ensures DocumentUpdate in faults ==> r == (store, Failure(DocumentRepository.UpdateDocumentFailed))
    ensures r.1.Ok? <==> DocumentUpdate !in faults && DocumentRepository.HasDocument(store.documents, revised.id)
    ensures |r.0.documents| == |store.documents|
    ensures forall i | 0 <= i < |store.documents| ::
      r.0.documents[i].id == store.documents[i].id && r.0.documents[i].userId == store.documents[i].userId
    ensures r.1.Ok? ==> r.1.value in r.0.documents && r.1.value.id == revised.id
    ensures r.1.Ok? ==> r.1.value.fileName == revised.fileName && r.1.value.fileExtension == revised.fileExtension
                        && r.1.value.filepath == revised.filepath
    ensures r.1.Ok? ==> exists i | 0 <= i < |store.documents| ::
      (store.documents[i].id == revised.id
       && r.1.value == store.documents[i].(fileName := revised.fileName, fileExtension := revised.fileExtension, filepath := revised.filepath))
  {
    var u := DocumentRepository.Update(store.documents, revised.id, Some(revised.fileName), Some(revised.fileExtension), Some(revised.filepath),
                                       DocumentUpdate in faults);
    (store.(documents := u.0), u.1)
  }

  /** After the owner check, in the source's order: rename, then validate,
      then update. */
  function RenameThenValidate(store: Store, existing: Document, revised: Document, faults: set<Op>, uploadRoot: string, renameOk: bool)
    : (r: (Store, Either<string, Document>, Option<FileMove>))
    ensures !ValidDocument(revised) && (Move(existing, revised, uploadRoot).None? || renameOk) ==>
      r.0 == store && r.1 == Failure(ValidateDocument(revised).value) && r.2 == Move(existing, revised, uploadRoot)
    ensures Move(existing, revised, uploadRoot).Some? && !renameOk ==> r == (store, Failure(RenameFailed), None)
    ensures r.1.Ok? <==>
      && ValidDocument(revised) && (Move(existing, revised, uploadRoot).None? || renameOk)
      && DocumentUpdate !in faults && DocumentRepository.HasDocument(store.documents, revised.id)
    ensures r.2.Some? ==> renameOk && r.2 == Move(existing, revised, uploadRoot)
    ensures r.0 == store.(documents := r.0.documents)
    ensures |r.0.documents| == |store.documents|
    ensures forall i | 0 <= i < |store.documents| ::
      r.0.documents[i].id == store.documents[i].id && r.0.documents[i].userId == store.documents[i].userId
    ensures r.1.Ok? ==> ValidDocument(revised) && r.1.value in r.0.documents && r.1.value.id == revised.id
    ensures r.1.Ok? ==> r.1.value.fileName == revised.fileName && r.1.value.fileExtension == revised.fileExtension
                        && r.1.value.filepath == revised.filepath
  {
    var move := Move(existing, revised, uploadRoot);
    if move.Some? && !renameOk then (store, Failure(RenameFailed), None)
    else
      match ValidateDocument(revised)
      case Some(e) => (store, Failure(e), move)
      case None => var c := Commit(store, revised, faults); (c.0, c.1, move)
  }

  /** After the owner check, corrected: validate, then rename, then update. */
  function ValidateThenRename(store: Store, existing: Document, revised: Document, faults: set<Op>, uploadRoot: string, renameOk: bool)
    : (r: (Store, Either<string, Document>, Option<FileMove>))
    ensures !ValidDocument(revised) ==> r.0 == store && r.1 == Failure(ValidateDocument(revised).value) && r.2.None?
    ensures ValidDocument(revised) && Move(existing, revised, uploadRoot).Some? && !renameOk ==>
      r == (store, Failure(RenameFailed), None)
    ensures r.1.Ok? <==>
      && ValidDocument(revised) && (Move(existing, revised, uploadRoot).None? || renameOk)
      && DocumentUpdate !in faults && DocumentRepository.HasDocument(store.documents, revised.id)
    ensures r.1.Failure? && DocumentUpdate !in faults && DocumentRepository.HasDocument(store.documents, revised.id) ==>
      r.0 == store && r.2.None?
    ensures r.2.Some? ==> renameOk && r.2 == Move(existing, revised, uploadRoot)
    ensures r.0 == store.(documents := r.0.documents)
    ensures |r.0.documents| == |store.documents|
    ensures forall i | 0 <= i < |store.documents| ::
      r.0.documents[i].id == store.documents[i].id && r.0.documents[i].userId == store.documents[i].userId
    ensures r.1.Ok? ==> ValidDocument(revised) && r.1.value in r.0.documents && r.1.value.id == revised.id
    ensures r.1.Ok? ==> r.1.value.fileName == revised.fileName && r.1.value.fileExtension == revised.fileExtension
                        && r.1.value.filepath == revised.filepath
  {
    match ValidateDocument(revised)
    case Some(e) => (store, Failure(e), None)
    case None =>
      var move := Move(existing, revised, uploadRoot);
      if move.Some? && !renameOk then (store, Failure(RenameFailed), None)
      else var c := Commit(store, revised, faults); (c.0, c.1, move)
  }

  /** The two step orders agree except on a rejected entity, where both fail
      with the store untouched and only the source's order may have moved
      the file. */
  lemma StepOrdersAgreeOtherwise(store: Store, existing: Document, revised: Document, faults: set<Op>, uploadRoot: string, renameOk: bool)
    ensures var w := RenameThenValidate(store, existing, revised, faults, uploadRoot, renameOk);
            var c := ValidateThenRename(store, existing, revised, faults, uploadRoot, renameOk);
      w != c ==> w.0 == c.0 == store && w.1.Failure? && c.1.Failure? && c.2.None?
  {
    var move := Move(existing, revised, uploadRoot);
    if ValidateDocument(revised).None? {
      if move.Some? && !renameOk {
        assert RenameThenValidate(store, existing, revised, faults, uploadRoot, renameOk) == (store, Failure(RenameFailed), None);
        assert ValidateThenRename(store, existing, revised, faults, uploadRoot, renameOk) == (store, Failure(RenameFailed), None);
      } else {
        var c := Commit(store, revised, faults);
        assert RenameThenValidate(store, existing, revised, faults, uploadRoot, renameOk) == (c.0, c.1, move);
        assert ValidateThenRename(store, existing, revised, faults, uploadRoot, renameOk) == (c.0, c.1, move);
      }
    }
  }

  /** `updateDocument` as the source orders it: look the document up, check
      ownership, rename the file on disk when its name changes, and only then
      build (and so validate) the updated entity before the repository
      update. `renameOk` is the outcome of the rename. */
  function UpdateDocumentAsWritten(store: Store, userId: string, id: string, fileName: Option<string>, fileExtension: Option<string>,
                                   faults: set<Op>, uploadRoot: string, renameOk: bool)
    : (r: (Store, Either<string, Document>, Option<FileMove>))
    ensures DocumentFetchById in faults || !DocumentRepository.HasDocument(store.documents, id) ==>
      r == (store, Failure(DocumentNotFound), None)
    ensures DocumentFetchById !in faults && DocumentRepository.HasDocument(store.documents, id)
            && !OwnerCheckPasses(store.permissions, id, userId, faults) ==>
      r == (store, Failure(OnlyOwnerCanUpdate), None)
    ensures r.1.Ok? ==> OwnerCheckPasses(store.permissions, id, userId, faults)
    ensures var t := UpdateTarget(store, userId, id, faults);
      t.Ok? && Move(t.value, Revised(t.value, fileName, fileExtension, uploadRoot), uploadRoot).Some? && !renameOk ==>
        r == (store, Failure(RenameFailed), None)
    ensures var t := UpdateTarget(store, userId, id, faults);
      r.1.Ok? <==>
        && t.Ok? && ValidDocument(Revised(t.value, fileName, fileExtension, uploadRoot))
        && (Move(t.value, Revised(t.value, fileName, fileExtension, uploadRoot), uploadRoot).None? || renameOk)
        && DocumentUpdate !in faults
    ensures r.0 == store.(documents := r.0.documents)
    ensures r.2.Some? ==> renameOk && r.2.value.from != r.2.value.to
  {
    match UpdateTarget(store, userId, id, faults)
    case Failure(e) => (store, Failure(e), None)
    case Ok(existing) =>
      RenameThenValidate(store, existing, Revised(existing, fileName, fileExtension, uploadRoot), faults, uploadRoot, renameOk)
  }

  /** `updateDocument` with the entity validated before the file is renamed,
      so that a rejected name never moves a file. Everything else is as in
      the source. */
  function UpdateDocument(store: Store, userId: string, id: string, fileName: Option<string>, fileExtension: Option<string>,
                          faults: set<Op>, uploadRoot: string, renameOk: bool)
    : (r: (Store, Either<string, Document>, Option<FileMove>))
    ensures DocumentFetchById in faults || !DocumentRepository.HasDocument(store.documents, id) ==>
      r == (store, Failure(DocumentNotFound), None)
    ensures DocumentFetchById !in faults && DocumentRepository.HasDocument(store.documents, id)
            && !OwnerCheckPasses(store.permissions, id, userId, faults) ==>
      r == (store, Failure(OnlyOwnerCanUpdate), None)
    ensures r.1.Ok? ==> OwnerCheckPasses(store.permissions, id, userId, faults)
    ensures var t := UpdateTarget(store, userId, id, faults);
      && t.Ok? && ValidDocument(Revised(t.value, fileName, fileExtension, uploadRoot))
      && Move(t.value, Revised(t.value, fileName, fileExtension, uploadRoot), uploadRoot).Some? && !renameOk ==>
        r == (store, Failure(RenameFailed), None)
    ensures var t := UpdateTarget(store, userId, id, faults);
      r.1.Ok? <==>
        && t.Ok? && ValidDocument(Revised(t.value, fileName, fileExtension, uploadRoot))
        && (Move(t.value, Revised(t.value, fileName, fileExtension, uploadRoot), uploadRoot).None? || renameOk)
        && DocumentUpdate !in faults
    ensures r.1.Failure? && DocumentUpdate !in faults ==> r.0 == store && r.2.None?
    ensures r.2.Some? ==> renameOk && r.2.value.from != r.2.value.to
    ensures r.0 == store.(documents := r.0.documents)
    ensures |r.0.documents| == |store.documents|
    ensures forall i | 0 <= i < |store.documents| ::
      r.0.documents[i].id == store.documents[i].id && r.0.documents[i].userId == store.documents[i].userId
    ensures r.1.Ok? ==> r.1.value.id == id && r.1.value in r.0.documents
    ensures r.1.Ok? ==> !Blank(r.1.value.fileName) && !Blank(r.1.value.fileExtension)
    ensures r.1.Ok? ==> r.1.value.filepath == UploadPath(uploadRoot, r.1.value.fileName, r.1.value.fileExtension)
    ensures r.1.Ok? && fileName.Some? && fileName.value != "" ==> r.1.value.fileName == fileName.value
    ensures r.1.Ok? && fileExtension.Some? && fileExtension.value != "" ==> r.1.value.fileExtension == fileExtension.value
  {
    match UpdateTarget(store, userId, id, faults)
    case Failure(e) => (store, Failure(e), None)
    case Ok(existing) =>
      ValidateThenRename(store, existing, Revised(existing, fileName, fileExtension, uploadRoot), faults, uploadRoot, renameOk)
  }

  /** The two orderings differ only on a rejected entity: both fail with the
      store untouched, and the corrected one never moves the file. */
  lemma UpdateOrderingsAgreeOtherwise(store: Store, userId: string, id: string, fileName: Option<string>, fileExtension: Option<string>,
                                      faults: set<Op>, uploadRoot: string, renameOk: bool)
    ensures var w := UpdateDocumentAsWritten(store, userId, id, fileName, fileExtension, faults, uploadRoot, renameOk);
            var c := UpdateDocument(store, userId, id, fileName, fileExtension, faults, uploadRoot, renameOk);
      w != c ==> w.0 == c.0 == store && w.1.Failure? && c.1.Failure? && c.2.None?
  {
    match UpdateTarget(store, userId, id, faults)
    case Failure(_) =>
    case Ok(existing) =>
      StepOrdersAgreeOtherwise(store, existing, Revised(existing, fileName, fileExtension, uploadRoot), faults, uploadRoot, renameOk);
  }

  /** The source's ordering at work: renaming "report.txt" to " " moves the
      file to "/u/ .txt" and only then fails the blank-name check, leaving
      the row pointing at a file that no longer exists. */
  lemma RenameBeforeValidation()
    ensures var store := Store([Document("d1", "report", "txt", "/u/report.txt", "u1")], [], [],
                               [Permission("p1", "d1", "u1", Owner)], []);
      && UpdateDocumentAsWritten(store, "u1", "d1", Some(" "), None, {}, "/u", true)
         == (store, Failure(FileNameEmpty), Some(FileMove("/u/report.txt", "/u/ .txt")))
      && UpdateDocument(store, "u1", "d1", Some(" "), None, {}, "/u", true)
         == (store, Failure(FileNameEmpty), None)
  {
    var store := Store([Document("d1", "report", "txt", "/u/report.txt", "u1")], [], [],
                       [Permission("p1", "d1", "u1", Owner)], []);
    var doc := store.documents[0];
    assert DocumentRepository.HasDocument(store.documents, "d1");
    assert DocumentRepository.FetchById(store.documents, "d1", false) == Ok(Some(doc));
    assert PermissionRepository.IsOwnerRow(store.permissions[0], "d1", "u1");
    assert OwnerCheckPasses(store.permissions, "d1", "u1", {});
    assert Given(Some(" "), "report") == " ";
    assert Given(None, "txt") == "txt";
    assert UploadPath("/u", "report", "txt") == "/u/report.txt";
    assert UploadPath("/u", " ", "txt") == "/u/ .txt";
    assert "/u/report.txt" != "/u/ .txt" by {
      assert "/u/report.txt"[3] != "/u/ .txt"[3];
    }
    assert IsWhitespace(' ');
    assert Blank(" ");
    assert ValidateDocument(Document("d1", " ", "txt", "/u/ .txt", "u1")) == Some(FileNameEmpty);
  }

  /** `deleteDocument`: only an owner may delete; a failed or empty delete is
      "Failed to delete document". Only the document row is removed. */
  function DeleteDocument(store: Store, id: string, userId: string, faults: set<Op>): (r: (Store, Either<string, bool>))
    ensures !OwnerCheckPasses(store.permissions, id, userId, faults) ==> r == (store, Failure(OnlyOwnerCanDelete))
    ensures OwnerCheckPasses(store.permissions, id, userId, faults) && !(DocumentRemove !in faults && DocumentRepository.HasDocument(store.documents, id)) ==>
      r == (store, Failure(DeleteFailed))
    ensures r.1.Ok? <==> OwnerCheckPasses(store.permissions, id, userId, faults) && DocumentRemove !in faults && DocumentRepository.HasDocument(store.documents, id)
    ensures r.1.Ok? ==> r.1.value && !DocumentRepository.HasDocument(r.0.documents, id)
    ensures r.1.Ok? ==> forall i | 0 <= i < |store.documents| :: store.documents[i].id != id ==> store.documents[i] in r.0.documents
    ensures r.0 == store.(documents := r.0.documents)
  {
    if !OwnerCheckPasses(store.permissions, id, userId, faults) then (store, Failure(OnlyOwnerCanDelete))
    else
      var removed := DocumentRepository.Remove(store.documents, id, DocumentRemove in faults);
      if removed.1.Failure? || !removed.1.value then (store, Failure(DeleteFailed))
      else (store.(documents := removed.0), Ok(true))
  }

  /** An owner may delete an existing document. */
  lemma OwnerMayDelete(store: Store, id: string, userId: string)
    requires PermissionRepository.HasOwnerRow(store.permissions, id, userId)
    requires DocumentRepository.HasDocument(store.documents, id)
    ensures DeleteDocument(store, id, userId, {}).1 == Ok(true)
  {
    OwnerCheckMeansOwnerRow(store.permissions, id, userId, {});
  }

  /** Without an Owner row nobody can delete, and nothing changes. */
  lemma NonOwnerMayNotDelete(store: Store, id: string, userId: string, faults: set<Op>)
    requires !PermissionRepository.HasOwnerRow(store.permissions, id, userId)
    ensures DeleteDocument(store, id, userId, faults) == (store, Failure(OnlyOwnerCanDelete))
  {
    OwnerCheckMeansOwnerRow(store.permissions, id, userId, faults);
  }

  /** A document created successfully can be deleted by its creator, and not
      by a user who owned nothing of that id before. */
  lemma CreatorMayDelete(store: Store, fileName: string, fileExtension: string, filepath: string, userId: string,
                         tagNames: seq<string>, faults: set<Op>, docId: string, permId: string, tagId: nat -> string, tagsLanded: nat,
                         other: string)
    requires |tagNames| > 0
    requires other != userId && !PermissionRepository.HasOwnerRow(store.permissions, docId, other)
    ensures var r := CreateDocument(store, fileName, fileExtension, filepath, userId, tagNames, faults, docId, permId, tagId, tagsLanded);
      r.1.Ok? ==>
        && DeleteDocument(r.0, docId, userId, {}).1 == Ok(true)
        && DeleteDocument(r.0, docId, other, {}) == (r.0, Failure(OnlyOwnerCanDelete))
  {
    var r := CreateDocument(store, fileName, fileExtension, filepath, userId, tagNames, faults, docId, permId, tagId, tagsLanded);
    if r.1.Ok? {
      var perms := r.0.permissions;
      assert PermissionRepository.Add(store.permissions, docId, userId, Owner, permId, false).0 == perms;
      PermissionRepository.AddOwnerGrantsOwnership(store.permissions, docId, userId, permId, docId, userId);
      PermissionRepository.AddOwnerGrantsOwnership(store.permissions, docId, userId, permId, docId, other);
      assert r.0.documents[|store.documents|].id == docId;
      assert DocumentRepository.HasDocument(r.0.documents, docId);
      OwnerMayDelete(r.0, docId, userId);
      NonOwnerMayNotDelete(r.0, docId, other, {});
    }
  }

  /** `getPaginatedDocuments`: the page of all documents, with the total
      count of documents; a fetch failure's message is passed on. */
  function GetPaginatedDocuments(store: Store, page: nat, limit: nat, faults: set<Op>): (r: Either<string, Pagination<Document>>)
    requires page >= 1 && limit >= 1
    ensures r.Failure? <==> DocumentFetchAll in faults
    ensures r.Failure? ==> r.error == DocumentRepository.FetchDocumentsFailed
    ensures r.Ok? ==> r.value.totalItems == |store.documents| && r.value.currentPage == page && r.value.itemsPerPage == limit
    ensures r.Ok? && (page - 1) * limit >= |store.documents| ==> r.value.items == []
    ensures r.Ok? && (page - 1) * limit < |store.documents| ==>
      r.value.items == store.documents[(page - 1) * limit .. Min((page - 1) * limit + limit, |store.documents|)]
  {
    match DocumentRepository.FetchAll(store.documents, DocumentFetchAll in faults)
    case Failure(e) => Failure(e)
    case Ok(all) => Ok(NewPagination(all, |all|, page, limit))
  }
}

=== FILE: download_service.dfy ===
/** `DownloadService`: signed, expiring download links. Signing and
    verification are parameters: `sign` turns a payload into a token, and
    `verify` returns the payload of a token that is authentic and not
    expired (the secret and the clock live inside them). */
module DownloadService {
  import opened Monads
  import opened DocumentEntity
  import opened Storage
  import DocumentRepository
  import DocumentService

  const DocumentNotFound := "Document not found"
  const InvalidToken := "Invalid or expired token"

  /** The claims of a download token. */
  datatype Payload = Payload(documentId: string)

  datatype Tokens = Tokens(sign: Payload -> string, verify: string -> Option<Payload>)

  /** A signer and verifier that fit together: a fresh token verifies to its
      own payload. */
  ghost predicate Sound(t: Tokens) {
    forall p: Payload :: t.verify(t.sign(p)) == Some(p)
  }

  /** `generateDownloadLink`: a link to the document carrying a token signed
      over its id. A failed lookup's message is passed on. */
  function GenerateDownloadLink(store: Store, documentId: string, protocol: string, host: string, faults: set<Op>, tokens: Tokens)
    : (r: Either<string, string>)
    ensures DocumentFetchById in faults ==> r == Failure(DocumentRepository.FetchDocumentFailed)
    ensures DocumentFetchById !in faults && !DocumentRepository.HasDocument(store.documents, documentId) ==> r == Failure(DocumentNotFound)
    ensures r.Ok? <==> DocumentFetchById !in faults && DocumentRepository.HasDocument(store.documents, documentId)
    ensures r.Ok? ==> r.value == protocol + "://" + host + "/api/downloads/" + documentId + "?token=" + tokens.sign(Payload(documentId))
  {
    match DocumentRepository.FetchById(store.documents, documentId, DocumentFetchById in faults)
    case Failure(e) => Failure(e)
    case Ok(None) => Failure(DocumentNotFound)
    case Ok(Some(_)) =>
      var token := tokens.sign(Payload(documentId));
      Ok(protocol + "://" + host + "/api/downloads/" + documentId + "?token=" + token)
  }

  /** The tail of the download step: look the document up and name its file. */
  function FileOf(store: Store, documentId: string, faults: set<Op>, uploadRoot: string): (r: Either<string, string>)
    ensures DocumentFetchById in faults ==> r == Failure(DocumentRepository.FetchDocumentFailed)
    ensures DocumentFetchById !in faults && !DocumentRepository.HasDocument(store.documents, documentId) ==> r == Failure(DocumentNotFound)
    ensures r.Ok? <==> DocumentFetchById !in faults && DocumentRepository.HasDocument(store.documents, documentId)
    ensures r.Ok? ==> exists i | 0 <= i < |store.documents| ::
      (store.documents[i].id == documentId
       && r.value == DocumentService.UploadPath(uploadRoot, store.documents[i].fileName, store.documents[i].fileExtension))
  {
    match DocumentRepository.FetchById(store.documents, documentId, DocumentFetchById in faults)
    case Failure(e) => Failure(e)
    case Ok(None) => Failure(DocumentNotFound)
    case Ok(Some(d)) =>
      assert exists i | 0 <= i < |store.documents| :: store.documents[i] == d;
      Ok(DocumentService.UploadPath(uploadRoot, d.fileName, d.fileExtension))
  }

  /** `downloadFile` as written: any valid, unexpired token is accepted, and
      then the file of the requested document is served. */
  function DownloadFile(store: Store, documentId: string, token: string, faults: set<Op>, tokens: Tokens, uploadRoot: string)
    : (r: Either<string, string>)
    ensures tokens.verify(token).None? ==> r == Failure(InvalidToken)
    ensures r.Ok? <==> tokens.verify(token).Some? && DocumentFetchById !in faults && DocumentRepository.HasDocument(store.documents, documentId)
    ensures tokens.verify(token).Some? ==> r == FileOf(store, documentId, faults, uploadRoot)
  {
    match tokens.verify(token)
    case None => Failure(InvalidToken)
    case Some(_) => FileOf(store, documentId, faults, uploadRoot)
  }

  /** `downloadFile` with the token bound to the document it was issued for:
      a token whose payload names another document is refused. */
  function DownloadFileBound(store: Store, documentId: string, token: string, faults: set<Op>, tokens: Tokens, uploadRoot: string)
    : (r: Either<string, string>)
    ensures tokens.verify(token) != Some(Payload(documentId)) ==> r == Failure(InvalidToken)
    ensures r.Ok? <==> tokens.verify(token) == Some(Payload(documentId)) && DocumentFetchById !in faults
                       && DocumentRepository.HasDocument(store.documents, documentId)
    ensures tokens.verify(token) == Some(Payload(documentId)) ==> r == DownloadFile(store, documentId, token, faults, tokens, uploadRoot)
  {
    if tokens.verify(token) != Some(Payload(documentId)) then Failure(InvalidToken)
    else FileOf(store, documentId, faults, uploadRoot)
  }

  /** The link's own token downloads the document it was generated for,
      under either version of the download step. */
  lemma LinkTokenDownloads(store: Store, documentId: string, faults: set<Op>, tokens: Tokens, uploadRoot: string)
    requires Sound(tokens)
    requires DocumentFetchById !in faults && DocumentRepository.HasDocument(store.documents, documentId)
    ensures DownloadFileBound(store, documentId, tokens.sign(Payload(documentId)), faults, tokens, uploadRoot).Ok?
    ensures DownloadFile(store, documentId, tokens.sign(Payload(documentId)), faults, tokens, uploadRoot).Ok?
  {
    assert tokens.verify(tokens.sign(Payload(documentId))) == Some(Payload(documentId));
  }

  /** As written, a token issued for document `a` downloads any other existing
      document `b`; the bound version refuses it. */
  lemma TokenForOtherDocumentAccepted(store: Store, a: string, b: string, faults: set<Op>, tokens: Tokens, uploadRoot: string)
    requires Sound(tokens) && a != b
    requires DocumentFetchById !in faults && DocumentRepository.HasDocument(store.documents, b)
    ensures DownloadFile(store, b, tokens.sign(Payload(a)), faults, tokens, uploadRoot).Ok?
    ensures DownloadFileBound(store, b, tokens.sign(Payload(a)), faults, tokens, uploadRoot) == Failure(InvalidToken)
  {
    assert tokens.verify(tokens.sign(Payload(a))) == Some(Payload(a));
  }
}

=== FILE: monads.dfy ===
/** The two-variant result type every repository and service returns,
    plus the nullable value (`T | null`) the repositories hand back for
    "no such row". */
module Monads {

  /** `Either<L, R> = Failure<L> | Ok<R>`: a value is exactly one of the two. */
  datatype Either<+L, +R> = Failure(error: L) | Ok(value: R) {

    /** The `isFailure()` type guard. */
    predicate IsFailure() {
      match this
      case Failure(_) => true
      case Ok(_) => false
    }

    /** The `isOk()` type guard. */
    predicate IsOk() {
      match this
      case Failure(_) => false
      case Ok(_) => true
    }
  }

  /** A nullable value: `None` is JavaScript's `null`. */
  datatype Option<+T> = None | Some(value: T)

  /** The two guards are complementary, and each one recognises its own variant. */
  lemma GuardsComplementary<L, R>(e: Either<L, R>)
    ensures e.IsFailure() != e.IsOk()
    ensures e.IsFailure() <==> e.Failure?
    ensures e.IsOk() <==> e.Ok?
  {
  }

  /** Railway-style chaining: a Failure skips the continuation. */
  function Bind<L, A, B>(e: Either<L, A>, k: A -> Either<L, B>): Either<L, B>
  {
    match e
    case Failure(err) => Failure(err)
    case Ok(v) => k(v)
  }

  /** Runs `steps` one after another on the success track. */
  function Chain<L, A>(e: Either<L, A>, steps: seq<A -> Either<L, A>>): Either<L, A>
    decreases |steps|
  {
    if |steps| == 0 then e else Chain(Bind(e, steps[0]), steps[1..])
  }

  /** Once on the failure track, no later step runs and the error is kept unchanged. */
  lemma {:induction false} ChainKeepsFailure<L, A>(err: L, steps: seq<A -> Either<L, A>>)
    ensures Chain(Failure(err), steps) == Failure(err)
    decreases |steps|
  {
    if |steps| > 0 {
      ChainKeepsFailure(err, steps[1..]);
    }
  }

  /** Running two pipelines back to back is running their concatenation. */
  lemma {:induction false} ChainAppend<L, A>(e: Either<L, A>, first: seq<A -> Either<L, A>>, second: seq<A -> Either<L, A>>)
    ensures Chain(e, first + second) == Chain(Chain(e, first), second)
    decreases |first|
  {
    if |first| > 0 {
      assert (first + second)[0] == first[0];
      assert (first + second)[1..] == first[1..] + second;
      ChainAppend(Bind(e, first[0]), first[1..], second);
    } else {
      assert first + second == second;
    }
  }

  /** The first failing step decides the result: if the steps before position
      `k` all succeed and step `k` fails with `err`, the whole pipeline returns
      `Failure(err)` whatever the steps after `k` would do. */
  lemma {:induction false} ChainStopsAtFirstFailure<L, A>(a: A, steps: seq<A -> Either<L, A>>, k: nat, err: L)
    requires k < |steps|
    requires Chain(Ok(a), steps[..k]).Ok?
    requires steps[k](Chain(Ok(a), steps[..k]).value) == Failure(err)
    ensures Chain(Ok(a), steps) == Failure(err)
  {
    var mid := Chain(Ok(a), steps[..k]);
    assert steps == steps[..k] + ([steps[k]] + steps[k + 1..]);
    ChainAppend(Ok(a), steps[..k], [steps[k]] + steps[k + 1..]);
    assert Chain(mid, [steps[k]] + steps[k + 1..]) == Chain(Bind(mid, steps[k]), steps[k + 1..]);
    ChainKeepsFailure(err, steps[k + 1..]);
  }
}

=== FILE: paging.dfy ===
/** `Pagination<T>`: one page of an ordered list plus the page arithmetic.
    Page numbers are 1-based; `limit` is the page size. */
module Paging {
  import opened Monads

  datatype Pagination<T> = Pagination(items: seq<T>, totalItems: nat, currentPage: nat, itemsPerPage: nat)

  /** The bundle `getPaginatedData()` returns. */
  datatype PageData<T> = PageData(data: seq<T>, totalItems: nat, totalPages: nat, currentPage: nat, itemsPerPage: nat)

  function Min(a: int, b: int): int { if a <= b then a else b }

  function Max(a: int, b: int): int { if a <= b then b else a }

  /** `items.slice(start, end)` for non-negative bounds: both ends clipped to the length. */
  function Slice<T>(items: seq<T>, start: nat, end: nat): (r: seq<T>)
    ensures start >= |items| ==> r == []
    ensures start <= end && start < |items| ==> r == items[start..Min(end, |items|)]
    ensures start <= end ==> |r| == Max(0, Min(end, |items|) - start)
  {
    var a := Min(start, |items|);
    var b := Min(end, |items|);
    if a <= b then items[a..b] else []
  }

  /** The constructor: keeps the metadata and slices out page `page`. */
  function NewPagination<T>(items: seq<T>, totalItems: nat, page: nat, limit: nat): (p: Pagination<T>)
    requires page >= 1 && limit >= 1
    ensures p.totalItems == totalItems && p.currentPage == page && p.itemsPerPage == limit
    ensures |p.items| <= limit
    ensures (page - 1) * limit >= |items| ==> p.items == []
    ensures (page - 1) * limit < |items| ==> p.items == items[(page - 1) * limit .. Min((page - 1) * limit + limit, |items|)]
  {
    var start := (page - 1) * limit;
    Pagination(Slice(items, start, start + limit), totalItems, page, limit)
  }

  /** `Math.ceil(totalItems / itemsPerPage)`. */
  function TotalPages<T>(p: Pagination<T>): (n: nat)
    requires p.itemsPerPage >= 1
    ensures n * p.itemsPerPage >= p.totalItems
    ensures (n - 1) * p.itemsPerPage < p.totalItems
  {
    CeilDiv(p.totalItems, p.itemsPerPage)
  }

  /** Integer ceiling of `a / b`. */
  function CeilDiv(a: nat, b: nat): (n: nat)
    requires b >= 1
    ensures n * b >= a && (n - 1) * b < a
  {
    var q := (a + b - 1) / b;
    DivBounds(a + b - 1, b);
    q
  }

  lemma DivBounds(x: nat, b: nat)
    requires b >= 1
    ensures (x / b) * b <= x < (x / b) * b + b
  {
  }

  /** `hasNextPage()`: the current page is before the last one, that is, the
      pages up to this one do not yet hold every item. */
  function HasNextPage<T>(p: Pagination<T>): (b: bool)
    requires p.itemsPerPage >= 1
    ensures b <==> p.currentPage * p.itemsPerPage < p.totalItems
  {
    NextPageBound(p.currentPage, TotalPages(p), p.itemsPerPage, p.totalItems);
    p.currentPage < TotalPages(p)
  }

  /** `hasPrevPage()`. */
  function HasPrevPage<T>(p: Pagination<T>): bool {
    p.currentPage > 1
  }

  /** `nextPage()`: the following page number, or null on the last page. */
  function NextPage<T>(p: Pagination<T>): (r: Option<nat>)
    requires p.itemsPerPage >= 1
    ensures r.Some? <==> p.currentPage * p.itemsPerPage < p.totalItems
    ensures r.Some? ==> r.value == p.currentPage + 1
  {
    if HasNextPage(p) then Some(p.currentPage + 1) else None
  }

  /** For n = ceil(total / limit): page c is before the last one exactly when
      the first c pages do not yet hold every item. */
  lemma NextPageBound(c: nat, n: nat, limit: nat, total: nat)
    requires limit >= 1
    requires n * limit >= total && (n - 1) * limit < total
    ensures c < n <==> c * limit < total
  {
    if c < n {
      MulMonotone(c, n - 1, limit);
    } else {
      MulMonotone(n, c, limit);
    }
  }

  lemma MulMonotone(a: int, b: int, k: nat)
    requires a <= b
    ensures a * k <= b * k
  {
    assert b * k - a * k == (b - a) * k;
  }

  /** `prevPage()`: the preceding page number, or null on page 1. */
  function PrevPage<T>(p: Pagination<T>): (r: Option<nat>)
    ensures r.Some? <==> p.currentPage > 1
    ensures r.Some? ==> r.value == p.currentPage - 1 && r.value >= 1
  {
    if HasPrevPage(p) then Some(p.currentPage - 1) else None
  }

  /** `getPaginatedData()`: the page with its metadata echoed back. */
  function GetPaginatedData<T>(p: Pagination<T>): (d: PageData<T>)
    requires p.itemsPerPage >= 1
    ensures d.data == p.items
    ensures d.totalItems == p.totalItems && d.currentPage == p.currentPage && d.itemsPerPage == p.itemsPerPage
    ensures d.totalPages * p.itemsPerPage >= p.totalItems && (d.totalPages - 1) * p.itemsPerPage < p.totalItems
  {
    PageData(p.items, p.totalItems, TotalPages(p), p.currentPage, p.itemsPerPage)
  }

  /** The concatenated data of pages 1..n. */
  function PagesUpTo<T>(items: seq<T>, limit: nat, n: nat): seq<T>
    requires limit >= 1
    decreases n
  {
    if n == 0 then [] else PagesUpTo(items, limit, n - 1) + NewPagination(items, |items|, n, limit).items
  }

  /** The first n pages cover exactly the first n * limit items (or all of them). */
  lemma {:induction false} PagesUpToPrefix<T>(items: seq<T>, limit: nat, n: nat)
    requires limit >= 1
    ensures PagesUpTo(items, limit, n) == items[..Min(n * limit, |items|)]
    decreases n
  {
    if n > 0 {
      PagesUpToPrefix(items, limit, n - 1);
      var a, b := PageBounds(items, limit, n);
      var prev := PagesUpTo(items, limit, n - 1);
      var page := NewPagination(items, |items|, n, limit).items;
      assert PagesUpTo(items, limit, n) == prev + page;
      assert prev == items[..a] && page == items[a..b];
      assert items[..a] + items[a..b] == items[..b];
    }
  }

  /** Page n is the slice between the ends of pages n - 1 and n. */
  lemma PageBounds<T>(items: seq<T>, limit: nat, n: nat) returns (a: nat, b: nat)
    requires limit >= 1 && n >= 1
    ensures a == Min((n - 1) * limit, |items|) && b == Min(n * limit, |items|)
    ensures a <= b <= |items|
    ensures NewPagination(items, |items|, n, limit).items == items[a..b]
  {
    var start := (n - 1) * limit;
    NextPageStart(n, limit);
    a := Min(start, |items|);
    b := Min(start + limit, |items|);
    if start < |items| {
      assert NewPagination(items, |items|, n, limit).items == items[start..b];
    } else {
      assert NewPagination(items, |items|, n, limit).items == [];
    }
  }

  /** Page n + 1 starts where page n ends. */
  lemma NextPageStart(n: nat, limit: nat)
    requires n >= 1
    ensures n * limit == (n - 1) * limit + limit
  {
  }

  /** Walking through every page in order reproduces the whole list. */
  lemma PagesCoverItems<T>(items: seq<T>, limit: nat)
    requires limit >= 1
    ensures PagesUpTo(items, limit, TotalPages(NewPagination(items, |items|, 1, limit))) == items
  {
    var n := TotalPages(NewPagination(items, |items|, 1, limit));
    PagesUpToPrefix(items, limit, n);
  }
}

=== FILE: permission_entity.dfy ===
/** The `Permission` entity: one user's access level on one document.
    Timestamps are not modelled. */
module PermissionEntity {
  import opened Monads
  import opened Text

  datatype Permission = Permission(id: string, documentId: string, userId: string, permissionType: string)

  const Owner := "Owner"
  const Editor := "Editor"
  const Viewer := "Viewer"

  const DocumentIdEmpty := "Document ID cannot be empty."
  const PermissionUserIdEmpty := "User ID cannot be empty."
  const InvalidPermissionType := "Invalid permission type. Allowed types: Owner, Editor, Viewer."

  /** The three access levels, compared case-sensitively. */
  predicate IsPermissionType(t: string) {
    t == Owner || t == Editor || t == Viewer
  }

  predicate ValidPermission(p: Permission) {
    !Blank(p.documentId) && !Blank(p.userId) && IsPermissionType(p.permissionType)
  }

  /** `["Owner", "Editor", "Viewer"].includes(t)`. */
  function AllowedType(t: string): (b: bool)
    ensures b <==> IsPermissionType(t)
  {
    t in [Owner, Editor, Viewer]
  }

  /** `validate()`: first failing check, in the order document id, user id, type. */
  function ValidatePermission(p: Permission): (e: Option<string>)
    ensures e.None? <==> ValidPermission(p)
    ensures Blank(p.documentId) ==> e == Some(DocumentIdEmpty)
    ensures !Blank(p.documentId) && Blank(p.userId) ==> e == Some(PermissionUserIdEmpty)
    ensures !Blank(p.documentId) && !Blank(p.userId) && !IsPermissionType(p.permissionType) ==> e == Some(InvalidPermissionType)
  {
    if Trim(p.documentId) == "" then Some(DocumentIdEmpty)
    else if Trim(p.userId) == "" then Some(PermissionUserIdEmpty)
    else if !AllowedType(p.permissionType) then Some(InvalidPermissionType)
    else None
  }

  /** The constructor (and `PermissionFactory.create`). */
  function NewPermission(documentId: string, userId: string, permissionType: string, id: string, freshId: string): (r: Either<string, Permission>)
    ensures r.Ok? <==> !Blank(documentId) && !Blank(userId) && IsPermissionType(permissionType)
    ensures r.Ok? ==> r.value.documentId == documentId && r.value.userId == userId && r.value.permissionType == permissionType
    ensures r.Ok? && id != "" ==> r.value.id == id
    ensures r.Ok? && id == "" ==> r.value.id == freshId
    ensures Blank(documentId) ==> r == Failure(DocumentIdEmpty)
    ensures !Blank(documentId) && Blank(userId) ==> r == Failure(PermissionUserIdEmpty)
    ensures !Blank(documentId) && !Blank(userId) && !IsPermissionType(permissionType) ==> r == Failure(InvalidPermissionType)
  {
    var p := Permission(OrElse(id, freshId), documentId, userId, permissionType);
    match ValidatePermission(p)
    case Some(msg) => Failure(msg)
    case None => Ok(p)
  }

  /** `updatePermissionType`: an unknown type is rejected; otherwise only the
      type changes (id, document and user are read-only). */
  function UpdatePermissionType(p: Permission, newType: string): (r: Either<string, Permission>)
    ensures r.Failure? <==> !IsPermissionType(newType)
    ensures r.Failure? ==> r.error == InvalidPermissionType
    ensures r.Ok? ==> r.value.permissionType == newType
    ensures r.Ok? ==> r.value.id == p.id && r.value.documentId == p.documentId && r.value.userId == p.userId
  {
    if !AllowedType(newType) then Failure(InvalidPermissionType) else Ok(p.(permissionType := newType))
  }

  /** The probe permission the document service builds with type "" can never
      be constructed: the empty type is not one of the three levels. */
  lemma ProbePermissionRejected(documentId: string, userId: string, id: string, freshId: string)
    requires !Blank(documentId) && !Blank(userId)
    ensures NewPermission(documentId, userId, "", id, freshId) == Failure(InvalidPermissionType)
  {
  }
}

=== FILE: permission_repository.dfy ===
/** `PermissionsRepository` over the `permissions` table. Every operation
    takes `fail`, standing for the storage statement throwing. */
module PermissionRepository {
  import opened Monads
  import opened Seqs
  import opened PermissionEntity

  const GrantFailed := "Failed to grant permission"
  const RevokeFailed := "Failed to revoke permission"
  const OwnershipCheckFailed := "Failed to check ownership"

  /** The row belongs to the pair (documentId, userId), whatever its type. */
  predicate Matches(p: Permission, documentId: string, userId: string) {
    p.documentId == documentId && p.userId == userId
  }

  predicate IsOwnerRow(p: Permission, documentId: string, userId: string) {
    Matches(p, documentId, userId) && p.permissionType == Owner
  }

  /** The ownership relation: a row (documentId, userId, "Owner") exists. */
  predicate HasOwnerRow(table: seq<Permission>, documentId: string, userId: string) {
    exists i | 0 <= i < |table| :: IsOwnerRow(table[i], documentId, userId)
  }

  predicate HasAnyRow(table: seq<Permission>, documentId: string, userId: string) {
    exists i | 0 <= i < |table| :: Matches(table[i], documentId, userId)
  }

  /** `add`: inserts a row as given. No uniqueness check and no type check. */
  function Add(table: seq<Permission>, documentId: string, userId: string, permissionType: string, id: string, fail: bool)
    : (r: (seq<Permission>, Either<string, Permission>))
    ensures fail ==> r == (table, Failure(GrantFailed))
    ensures !fail ==> r.1 == Ok(Permission(id, documentId, userId, permissionType))
    ensures !fail ==> |r.0| == |table| + 1 && r.0[..|table|] == table && r.0[|table|] == r.1.value
  {
    if fail then (table, Failure(GrantFailed))
    else
      var row := Permission(id, documentId, userId, permissionType);
      (table + [row], Ok(row))
  }

  /** `remove`: deletes every row of the pair whatever its type, and reports
      whether anything was deleted (never a Failure for "nothing to delete"). */
  function Remove(table: seq<Permission>, documentId: string, userId: string, fail: bool)
    : (r: (seq<Permission>, Either<string, bool>))
    ensures fail ==> r == (table, Failure(RevokeFailed))
    ensures !fail ==> r.1 == Ok(HasAnyRow(table, documentId, userId))
    ensures !fail ==> forall i | 0 <= i < |r.0| :: r.0[i] in table && !Matches(r.0[i], documentId, userId)
    ensures !fail ==> forall i | 0 <= i < |table| :: !Matches(table[i], documentId, userId) ==> table[i] in r.0
  {
    if fail then (table, Failure(RevokeFailed))
    else
      var kept := Filter(table, p => !Matches(p, documentId, userId));
      (kept, Ok(|table| - |kept| > 0))
  }

  /** `checkOwnership`: a read-only query for an Owner row; Editor and
      Viewer rows do not count. */
  function CheckOwnership(table: seq<Permission>, documentId: string, requesterId: string, fail: bool)
    : (r: Either<string, bool>)
    ensures fail ==> r == Failure(OwnershipCheckFailed)
    ensures !fail ==> r == Ok(HasOwnerRow(table, documentId, requesterId))
  {
    if fail then Failure(OwnershipCheckFailed)
    else
      var owners := Filter(table, p => IsOwnerRow(p, documentId, requesterId));
      assert |owners| > 0 ==> owners[0] in table;
      Ok(|owners| > 0)
  }

  /** An Owner row at the end of the table makes its user an owner of its document. */
  lemma OwnerRowAppended(table: seq<Permission>, id: string, documentId: string, userId: string)
    ensures HasOwnerRow(table + [Permission(id, documentId, userId, Owner)], documentId, userId)
  {
    assert IsOwnerRow((table + [Permission(id, documentId, userId, Owner)])[|table|], documentId, userId);
  }

  /** Inserting an Owner row makes its user an owner; nobody else's
      ownership changes. */
  lemma AddOwnerGrantsOwnership(table: seq<Permission>, documentId: string, userId: string, id: string, d: string, u: string)
    ensures var t := Add(table, documentId, userId, Owner, id, false).0;
      HasOwnerRow(t, d, u) <==> HasOwnerRow(table, d, u) || (d == documentId && u == userId)
  {
    var t := Add(table, documentId, userId, Owner, id, false).0;
    if HasOwnerRow(table, d, u) {
      var i :| 0 <= i < |table| && IsOwnerRow(table[i], d, u);
      assert t[i] == table[i];
    }
    if HasOwnerRow(t, d, u) && !(d == documentId && u == userId) {
      var i :| 0 <= i < |t| && IsOwnerRow(t[i], d, u);
      assert i < |table| && t[i] == table[i];
    }
    if d == documentId && u == userId {
      assert IsOwnerRow(t[|table|], d, u);
    }
  }

  /** Revoking removes ownership of that pair and leaves every other pair's
      ownership as it was. */
  lemma RemoveRevokesOnlyThatPair(table: seq<Permission>, documentId: string, userId: string, d: string, u: string)
    ensures var t := Remove(table, documentId, userId, false).0;
      HasOwnerRow(t, d, u) <==> HasOwnerRow(table, d, u) && !(d == documentId && u == userId)
  {
    var t := Remove(table, documentId, userId, false).0;
    if HasOwnerRow(t, d, u) {
      var i :| 0 <= i < |t| && IsOwnerRow(t[i], d, u);
      assert t[i] in table;
      var j :| 0 <= j < |table| && table[j] == t[i];
      assert IsOwnerRow(table[j], d, u);
    }
    if HasOwnerRow(table, d, u) && !(d == documentId && u == userId) {
      var j :| 0 <= j < |table| && IsOwnerRow(table[j], d, u);
      assert table[j] in t;
      var i :| 0 <= i < |t| && t[i] == table[j];
      assert IsOwnerRow(t[i], d, u);
    }
  }
}

=== FILE: permission_service.dfy ===
/** `PermissionsService`: granting and revoking access to a document. An
    Admin requester skips the check; anyone else must own the document, and
    a failed ownership query counts as "not the owner". */
module PermissionService {
  import opened Monads
  import opened PermissionEntity
  import opened UserEntity
  import opened Storage
  import PermissionRepository

  const InsufficientToGrant := "Insufficient permissions to grant access"
  const InsufficientToRevoke := "Insufficient permissions to revoke access"

  /** The gate both operations share: an Admin, or a requester for whom the
      ownership query succeeds with true. */
  predicate Authorized(perms: seq<Permission>, documentId: string, requesterId: string, requesterRole: string, faults: set<Op>) {
    requesterRole == AdminRole
    || PermissionRepository.CheckOwnership(perms, documentId, requesterId, OwnershipCheck in faults) == Ok(true)
  }

  /** The gate in terms of the permission table: an Admin, or an owner of the
      document whose ownership query does not fail. */
  lemma AuthorizedMeansAdminOrOwner(perms: seq<Permission>, documentId: string, requesterId: string, requesterRole: string, faults: set<Op>)
    ensures Authorized(perms, documentId, requesterId, requesterRole, faults) <==>
      requesterRole == AdminRole
      || (OwnershipCheck !in faults && PermissionRepository.HasOwnerRow(perms, documentId, requesterId))
  {
  }

  /** `grantPermission`: inserts the row when the requester passes the gate;
      the target user and the type are passed through unchecked. */
  function GrantPermission(perms: seq<Permission>, documentId: string, userId: string, permissionType: string,
                           requesterId: string, requesterRole: string, faults: set<Op>, id: string)
    : (r: (seq<Permission>, Either<string, Permission>))
    ensures !Authorized(perms, documentId, requesterId, requesterRole, faults) ==> r == (perms, Failure(InsufficientToGrant))
    ensures Authorized(perms, documentId, requesterId, requesterRole, faults) && PermissionAdd in faults ==>
      r == (perms, Failure(PermissionRepository.GrantFailed))
    ensures r.1.Ok? <==> Authorized(perms, documentId, requesterId, requesterRole, faults) && PermissionAdd !in faults
    ensures r.1.Ok? ==> r.1.value == Permission(id, documentId, userId, permissionType) && r.0 == perms + [r.1.value]
    ensures r.1.Failure? ==> r.0 == perms
  {
    if requesterRole != AdminRole
       && (var check := PermissionRepository.CheckOwnership(perms, documentId, requesterId, OwnershipCheck in faults);
           check.Failure? || !check.value)
    then (perms, Failure(InsufficientToGrant))
    else PermissionRepository.Add(perms, documentId, userId, permissionType, id, PermissionAdd in faults)
  }

  /** `revokePermission`: deletes every row of (documentId, userId) when the
      requester passes the gate, and reports whether there was one. */
  function RevokePermission(perms: seq<Permission>, documentId: string, userId: string,
                            requesterId: string, requesterRole: string, faults: set<Op>)
    : (r: (seq<Permission>, Either<string, bool>))
    ensures !Authorized(perms, documentId, requesterId, requesterRole, faults) ==> r == (perms, Failure(InsufficientToRevoke))
    ensures Authorized(perms, documentId, requesterId, requesterRole, faults) && PermissionRemove in faults ==>
      r == (perms, Failure(PermissionRepository.RevokeFailed))
    ensures r.1.Ok? <==> Authorized(perms, documentId, requesterId, requesterRole, faults) && PermissionRemove !in faults
    ensures r.1.Ok? ==> r.1.value == PermissionRepository.HasAnyRow(perms, documentId, userId)
    ensures r.1.Ok? ==> forall i | 0 <= i < |r.0| :: r.0[i] in perms && !PermissionRepository.Matches(r.0[i], documentId, userId)
    ensures r.1.Ok? ==> forall i | 0 <= i < |perms| :: !PermissionRepository.Matches(perms[i], documentId, userId) ==> perms[i] in r.0
    ensures r.1.Failure? ==> r.0 == perms
  {
    if requesterRole != AdminRole
       && (var check := PermissionRepository.CheckOwnership(perms, documentId, requesterId, OwnershipCheck in faults);
           check.Failure? || !check.value)
    then (perms, Failure(InsufficientToRevoke))
    else PermissionRepository.Remove(perms, documentId, userId, PermissionRemove in faults)
  }

  /** Whether a grant is allowed never depends on whom it is for or what it
      grants. */
  lemma GrantGateIgnoresTarget(perms: seq<Permission>, documentId: string, u1: string, t1: string, u2: string, t2: string,
                               requesterId: string, requesterRole: string, faults: set<Op>, id: string)
    ensures GrantPermission(perms, documentId, u1, t1, requesterId, requesterRole, faults, id).1.Ok? <==>
            GrantPermission(perms, documentId, u2, t2, requesterId, requesterRole, faults, id).1.Ok?
  {
  }

  /** A non-Admin who is not an owner can neither grant nor revoke, however
      the storage behaves. */
  lemma NonOwnerIsRefused(perms: seq<Permission>, documentId: string, userId: string, permissionType: string,
                          requesterId: string, requesterRole: string, faults: set<Op>, id: string)
    requires requesterRole != AdminRole && !PermissionRepository.HasOwnerRow(perms, documentId, requesterId)
    ensures GrantPermission(perms, documentId, userId, permissionType, requesterId, requesterRole, faults, id)
            == (perms, Failure(InsufficientToGrant))
    ensures RevokePermission(perms, documentId, userId, requesterId, requesterRole, faults)
            == (perms, Failure(InsufficientToRevoke))
  {
  }

  /** An owner who grants someone Owner makes them able to grant and revoke too. */
  lemma GrantedOwnerIsAuthorized(perms: seq<Permission>, documentId: string, userId: string,
                                 requesterId: string, requesterRole: string, faults: set<Op>, id: string)
    requires OwnershipCheck !in faults
    ensures var r := GrantPermission(perms, documentId, userId, Owner, requesterId, requesterRole, faults, id);
      r.1.Ok? ==> Authorized(r.0, documentId, userId, UserRole, faults)
  {
    var r := GrantPermission(perms, documentId, userId, Owner, requesterId, requesterRole, faults, id);
    if r.1.Ok? {
      PermissionRepository.AddOwnerGrantsOwnership(perms, documentId, userId, id, documentId, userId);
    }
  }
}

=== FILE: seqs.dfy ===
/** Sequence operations shared by the in-memory tables: `WHERE`-filtered
    selection and deletion, first-match lookup, and `UPDATE ... WHERE`. */
module Seqs {
  import opened Monads

  /** The rows of `s` that satisfy `keep`, in their original order. */
  function Filter<T>(s: seq<T>, keep: T -> bool): (r: seq<T>)
    ensures |r| <= |s|
    ensures forall i | 0 <= i < |r| :: r[i] in s && keep(r[i])
    ensures forall i | 0 <= i < |s| :: keep(s[i]) ==> s[i] in r
    ensures |r| == |s| <==> forall i | 0 <= i < |s| :: keep(s[i])
    ensures |r| == |s| ==> r == s
    decreases |s|
  {
    if |s| == 0 then []
    else
      var rest := Filter(s[1..], keep);
      assert forall i | 1 <= i < |s| :: s[i] == s[1..][i - 1];
      if keep(s[0]) then [s[0]] + rest else rest
  }

  /** A rejected row at the end leaves the filtered rows as they were. */
  lemma {:induction false} FilterDropsRejectedLast<T>(s: seq<T>, x: T, keep: T -> bool)
    requires !keep(x)
    ensures Filter(s + [x], keep) == Filter(s, keep)
    decreases |s|
  {
    if |s| == 0 {
      assert s + [x] == [x] && [x][1..] == [];
    } else {
      assert (s + [x])[0] == s[0] && (s + [x])[1..] == s[1..] + [x];
      FilterDropsRejectedLast(s[1..], x, keep);
    }
  }

  /** The position of the first row satisfying `p`, if any. */
  function FindIndex<T>(s: seq<T>, p: T -> bool): (r: Option<nat>)
    ensures r.None? <==> forall i | 0 <= i < |s| :: !p(s[i])
    ensures r.Some? ==> r.value < |s| && p(s[r.value])
    ensures r.Some? ==> forall j | 0 <= j < r.value :: !p(s[j])
    decreases |s|
  {
    if |s| == 0 then None
    else if p(s[0]) then Some(0)
    else
      match FindIndex(s[1..], p)
      case None => None
      case Some(k) => Some(k + 1)
  }

  /** The first row satisfying `p` (`result[0] || null` on a filtered select). */
  function Find<T>(s: seq<T>, p: T -> bool): (r: Option<T>)
    ensures r.None? <==> forall i | 0 <= i < |s| :: !p(s[i])
    ensures r.Some? ==> r.value in s && p(r.value)
  {
    match FindIndex(s, p)
    case None => None
    case Some(k) => Some(s[k])
  }

  /** `UPDATE ... SET f WHERE p`: every row satisfying `p` is rewritten by `f`,
      every other row is kept, and the order is unchanged. */
  function UpdateWhere<T>(s: seq<T>, p: T -> bool, f: T -> T): (r: seq<T>)
    ensures |r| == |s|
    ensures forall i | 0 <= i < |s| :: r[i] == (if p(s[i]) then f(s[i]) else s[i])
  {
    seq(|s|, i requires 0 <= i < |s| => if p(s[i]) then f(s[i]) else s[i])
  }
}

=== FILE: storage.dfy ===
/** The relational store as plain tables of rows, and the names of the
    storage calls the services make, so that a storage error can be
    injected into any one of them. */
module Storage {
  import opened DocumentEntity
  import opened TagEntity
  import opened PermissionEntity
  import opened UserEntity

  /** A row of the `document_tags` join table. */
  datatype DocumentTag = DocumentTag(documentId: string, tagId: string)

  datatype Store = Store(
    documents: seq<Document>,
    tags: seq<Tag>,
    documentTags: seq<DocumentTag>,
    permissions: seq<Permission>,
    users: seq<User>)

  /** One repository call. A service receives the set of calls whose
      storage statement throws. */
  datatype Op =
    | DocumentAdd | DocumentFetchById | DocumentRemove | DocumentFetchAll | DocumentUpdate
    | TagsGetOrCreate | TagsLink | PermissionAssign | PermissionFetch
    | OwnershipCheck | PermissionAdd | PermissionRemove
    | TagAdd | TagUpdate | TagRemove | TagFetchAll
}

=== FILE: tag_entity.dfy ===
/** The `Tag` entity: a validated, renamable label. Timestamps are not modelled. */
module TagEntity {
  import opened Monads
  import opened Text

  datatype Tag = Tag(id: string, name: string)

  const MaxTagNameLength := 50
  const TagNameEmpty := "Tag name cannot be empty."
  const TagNameTooLong := "Tag name cannot exceed 50 characters."

  /** A usable tag name: not blank and at most 50 UTF-16 code units long
      (the length of the name as given, not of its trimmed form). */
  predicate ValidTagName(name: string) {
    !Blank(name) && Utf16Length(name) <= MaxTagNameLength
  }

  /** The two checks shared by `validate()` and `updateName`, in order. */
  function CheckTagName(name: string): (e: Option<string>)
    ensures e.None? <==> ValidTagName(name)
    ensures Blank(name) ==> e == Some(TagNameEmpty)
    ensures !Blank(name) && Utf16Length(name) > MaxTagNameLength ==> e == Some(TagNameTooLong)
  {
    if Trim(name) == "" then Some(TagNameEmpty)
    else if Utf16Length(name) > MaxTagNameLength then Some(TagNameTooLong)
    else None
  }

  /** The constructor (and `TagFactory.create`). */
  function NewTag(name: string, id: string, freshId: string): (r: Either<string, Tag>)
    ensures r.Ok? <==> ValidTagName(name)
    ensures r.Failure? ==> r == Failure(CheckTagName(name).value)
    ensures r.Ok? ==> r.value.name == name
    ensures r.Ok? && id != "" ==> r.value.id == id
    ensures r.Ok? && id == "" ==> r.value.id == freshId
  {
    match CheckTagName(name)
    case Some(msg) => Failure(msg)
    case None => Ok(Tag(OrElse(id, freshId), name))
  }

  /** `updateName`: the same two checks; on success only the name changes. */
  function UpdateName(t: Tag, newName: string): (r: Either<string, Tag>)
    ensures r.Ok? <==> ValidTagName(newName)
    ensures r.Failure? ==> r == Failure(CheckTagName(newName).value)
    ensures r.Ok? ==> r.value.id == t.id && r.value.name == newName
  {
    match CheckTagName(newName)
    case Some(msg) => Failure(msg)
    case None => Ok(t.(name := newName))
  }

  /** The 50-unit bound is inclusive: for names in the Basic Multilingual
      Plane, 50 characters are accepted and 51 rejected. */
  lemma TagNameLengthBoundary(name: string)
    requires !Blank(name)
    requires forall i | 0 <= i < |name| :: name[i] as int <= 0xFFFF
    ensures |name| == 50 ==> NewTag(name, "", "").Ok?
    ensures |name| == 51 ==> NewTag(name, "", "") == Failure(TagNameTooLong)
  {
    Utf16LengthBounds(name);
  }
}

=== FILE: tag_repository.dfy ===
/** `TagRepository` over the `tags` table. Every operation takes `fail`,
    standing for the storage statement throwing. */
module TagRepository {
  import opened Monads
  import opened Seqs
  import opened TagEntity

  const CreateTagFailed := "Failed to create tag"
  const UpdateTagFailed := "Failed to update tag"
  const DeleteTagFailed := "Failed to delete tag"
  const FetchTagsFailed := "Failed to fetch tags"

  predicate HasTag(table: seq<Tag>, id: string) {
    exists i | 0 <= i < |table| :: table[i].id == id
  }

  /** `add`: inserts a row with the given name; neither the blank check nor
      the length check of the entity is applied here. */
  function Add(table: seq<Tag>, name: string, id: string, fail: bool): (r: (seq<Tag>, Either<string, Tag>))
    ensures fail ==> r == (table, Failure(CreateTagFailed))
    ensures !fail ==> r.1 == Ok(Tag(id, name))
    ensures !fail ==> |r.0| == |table| + 1 && r.0[..|table|] == table && r.0[|table|] == r.1.value
  {
    if fail then (table, Failure(CreateTagFailed))
    else (table + [Tag(id, name)], Ok(Tag(id, name)))
  }

  /** `update`: renames the row(s) with the given id and returns the updated
      row, or null (not a Failure) when no row has that id. */
  function Update(table: seq<Tag>, id: string, name: string, fail: bool): (r: (seq<Tag>, Either<string, Option<Tag>>))
    ensures fail ==> r == (table, Failure(UpdateTagFailed))
    ensures !fail ==> |r.0| == |table|
    ensures !fail ==> forall i | 0 <= i < |table| ::
      r.0[i] == (if table[i].id == id then table[i].(name := name) else table[i])
    ensures !fail && !HasTag(table, id) ==> r == (table, Ok(None))
    ensures !fail && HasTag(table, id) ==>
              r.1.Ok? && r.1.value.Some? && r.1.value.value.id == id
              && r.1.value.value.name == name && r.1.value.value in r.0
  {
    if fail then (table, Failure(UpdateTagFailed))
    else
      var updated := UpdateWhere(table, (t: Tag) => t.id == id, (t: Tag) => t.(name := name));
      match FindIndex(table, (t: Tag) => t.id == id)
      case None =>
        assert updated == table;
        (updated, Ok(None))
      case Some(k) => (updated, Ok(Some(updated[k])))
  }

  /** `remove`: deletes the row(s) with the id; ok(false), not a Failure,
      when there was none. */
  function Remove(table: seq<Tag>, id: string, fail: bool): (r: (seq<Tag>, Either<string, bool>))
    ensures fail ==> r == (table, Failure(DeleteTagFailed))
    ensures !fail ==> r.1 == Ok(HasTag(table, id))
    ensures !fail ==> forall i | 0 <= i < |r.0| :: r.0[i] in table && r.0[i].id != id
    ensures !fail ==> forall i | 0 <= i < |table| :: table[i].id != id ==> table[i] in r.0
  {
    if fail then (table, Failure(DeleteTagFailed))
    else
      var kept := Filter(table, (t: Tag) => t.id != id);
      (kept, Ok(|table| - |kept| > 0))
  }

  /** `fetchAll`: every row, in table order. */
  function FetchAll(table: seq<Tag>, fail: bool): (r: Either<string, seq<Tag>>)
    ensures fail ==> r == Failure(FetchTagsFailed)
    ensures !fail ==> r == Ok(table)
  {
    if fail then Failure(FetchTagsFailed) else Ok(table)
  }
}

=== FILE: tag_service.dfy ===
/** `TagService`: a thin layer over the tag repository. The only check it adds
    is the falsy-name check, which rejects "" but lets a blank name through. */
module TagService {
  import opened Monads
  import opened TagEntity
  import opened Storage
  import opened Paging
  import Seqs
  import TagRepository

  const TagNameRequired := "Tag name is required"

  /** `getAllTags`: every stored tag. */
  function GetAllTags(tags: seq<Tag>, faults: set<Op>): (r: Either<string, seq<Tag>>)
    ensures r.Ok? <==> TagFetchAll !in faults
    ensures r.Ok? ==> r.value == tags
    ensures r.Failure? ==> r.error == TagRepository.FetchTagsFailed
  {
    TagRepository.FetchAll(tags, TagFetchAll in faults)
  }

  /** `createTag`: refuses the empty name, otherwise stores the name as given. */
  function CreateTag(tags: seq<Tag>, name: string, faults: set<Op>, id: string): (r: (seq<Tag>, Either<string, Tag>))
    ensures name == "" ==> r == (tags, Failure(TagNameRequired))
    ensures r.1.Ok? <==> name != "" && TagAdd !in faults
    ensures r.1.Ok? ==> r.1.value == Tag(id, name) && r.0 == tags + [r.1.value]
    ensures name != "" && TagAdd in faults ==> r.1 == Failure(TagRepository.CreateTagFailed)
    ensures r.1.Failure? ==> r.0 == tags
  {
    if name == "" then (tags, Failure(TagNameRequired))
    else TagRepository.Add(tags, name, id, TagAdd in faults)
  }

  /** `updateTag`: refuses the empty name, otherwise renames the tag; an
      unknown id is ok(null), not a Failure. */
  function UpdateTag(tags: seq<Tag>, id: string, name: string, faults: set<Op>): (r: (seq<Tag>, Either<string, Option<Tag>>))
    ensures name == "" ==> r == (tags, Failure(TagNameRequired))
    ensures r.1.Ok? <==> name != "" && TagUpdate !in faults
    ensures r.1 == Ok(None) <==> name != "" && TagUpdate !in faults && !TagRepository.HasTag(tags, id)
    ensures r.1.Ok? && r.1.value.Some? ==> r.1.value.value == Tag(id, name) && r.1.value.value in r.0
    ensures name != "" && TagUpdate in faults ==> r == (tags, Failure(TagRepository.UpdateTagFailed))
    ensures |r.0| == |tags|
    ensures forall i | 0 <= i < |tags| :: tags[i].id != id ==> r.0[i] == tags[i]
    ensures r.1.Ok? ==> forall i | 0 <= i < |tags| :: tags[i].id == id ==> r.0[i] == tags[i].(name := name)
  {
    if name == "" then (tags, Failure(TagNameRequired))
    else TagRepository.Update(tags, id, name, TagUpdate in faults)
  }

  /** `deleteTag`: deletes the tag and reports whether there was one. */
  function DeleteTag(tags: seq<Tag>, id: string, faults: set<Op>): (r: (seq<Tag>, Either<string, bool>))
    ensures r.1.Ok? <==> TagRemove !in faults
    ensures r.1.Ok? ==> r.1.value == TagRepository.HasTag(tags, id) && !TagRepository.HasTag(r.0, id)
    ensures TagRemove in faults ==> r.1 == Failure(TagRepository.DeleteTagFailed)
    ensures r.1.Ok? ==> forall i | 0 <= i < |tags| :: tags[i].id != id ==> tags[i] in r.0
    ensures r.1.Ok? ==> forall i | 0 <= i < |r.0| :: r.0[i] in tags
    ensures r.1.Failure? ==> r.0 == tags
  {
    TagRepository.Remove(tags, id, TagRemove in faults)
  }

  /** `getPaginatedTags`: one page of all tags, with the total count of tags. */
  function GetPaginatedTags(tags: seq<Tag>, page: nat, limit: nat, faults: set<Op>): (r: Either<string, PageData<Tag>>)
    requires page >= 1 && limit >= 1
    ensures r.Failure? <==> TagFetchAll in faults
    ensures r.Failure? ==> r.error == TagRepository.FetchTagsFailed
    ensures r.Ok? ==> r.value.totalItems == |tags| && r.value.currentPage == page && r.value.itemsPerPage == limit
    ensures r.Ok? && (page - 1) * limit >= |tags| ==> r.value.data == []
    ensures r.Ok? && (page - 1) * limit < |tags| ==> r.value.data == tags[(page - 1) * limit .. Min((page - 1) * limit + limit, |tags|)]
    ensures r.Ok? ==> r.value.totalPages * limit >= |tags| && (r.value.totalPages - 1) * limit < |tags|
  {
    if TagFetchAll in faults then Failure(TagRepository.FetchTagsFailed)
    else
      var all := TagRepository.FetchAll(tags, false).value;
      assert all == tags;
      var p := NewPagination(all, |all|, page, limit);
      var d := GetPaginatedData(p);
      assert d.totalPages * p.itemsPerPage >= p.totalItems && (d.totalPages - 1) * p.itemsPerPage < p.totalItems;
      Ok(d)
  }

  /** A blank name gets past the service: it is stored as given. */
  lemma BlankTagNameStored(tags: seq<Tag>, id: string)
    ensures CreateTag(tags, " ", {}, id).1 == Ok(Tag(id, " "))
  {
  }

  /** Deleting a tag just created under a fresh id gives the table back
      exactly, and reports that the tag existed. */
  lemma DeleteUndoesCreate(tags: seq<Tag>, name: string, id: string)
    requires name != "" && !TagRepository.HasTag(tags, id)
    ensures var c := CreateTag(tags, name, {}, id);
      c.1.Ok? && DeleteTag(c.0, id, {}) == (tags, Ok(true))
  {
    var keep := (t: Tag) => t.id != id;
    Seqs.FilterDropsRejectedLast(tags, Tag(id, name), keep);
    assert |Seqs.Filter(tags, keep)| == |tags|;
  }
}

=== FILE: text.dfy ===
/** The JavaScript string operations the core relies on, written out over
    `seq<char>`: `trim()`, `.length` (UTF-16 code units), `lastIndexOf`,
    `substring`, `split(...).pop()` and the `s || fallback` idiom. */
module Text {

  /** ECMAScript WhiteSpace and LineTerminator code points: exactly what
      `String.prototype.trim` strips. */
  predicate IsWhitespace(c: char) {
    || c == '\t' || c == '\n' || c == '\U{000B}' || c == '\U{000C}' || c == '\r'
    || c == ' ' || c == '\U{00A0}' || c == '\U{1680}'
    || ('\U{2000}' <= c <= '\U{200A}')
    || c == '\U{2028}' || c == '\U{2029}' || c == '\U{202F}' || c == '\U{205F}'
    || c == '\U{3000}' || c == '\U{FEFF}'
  }

  /** "Blank": every character is whitespace (the empty string is blank). */
  predicate Blank(s: string) {
    forall i | 0 <= i < |s| :: IsWhitespace(s[i])
  }

  /** Drops leading whitespace. */
  function TrimStart(s: string): (r: string)
    ensures |r| <= |s| && r == s[|s| - |r|..]
    ensures r == [] <==> Blank(s)
    ensures r != [] ==> !IsWhitespace(r[0])
    decreases |s|
  {
    if |s| > 0 && IsWhitespace(s[0]) then TrimStart(s[1..]) else s
  }

  /** Drops trailing whitespace. */
  function TrimEnd(s: string): (r: string)
    ensures |r| <= |s| && r == s[..|r|]
    ensures r == [] <==> Blank(s)
    decreases |s|
  {
    if |s| > 0 && IsWhitespace(s[|s| - 1]) then TrimEnd(s[..|s| - 1]) else s
  }

  /** `s.trim()`; the string trims to "" exactly when it is blank. */
  function Trim(s: string): (r: string)
    ensures r == "" <==> Blank(s)
  {
    var t := TrimStart(s);
    assert Blank(t) ==> t == [] by {
      if t != [] { assert !IsWhitespace(t[0]); }
    }
    TrimEnd(t)
  }

  /** A character outside the Basic Multilingual Plane takes two UTF-16 code units. */
  function CodeUnits(c: char): nat {
    if c as int > 0xFFFF then 2 else 1
  }

  /** `s.length` in JavaScript: the number of UTF-16 code units. */
  function Utf16Length(s: string): nat
    decreases |s|
  {
    if |s| == 0 then 0 else CodeUnits(s[0]) + Utf16Length(s[1..])
  }

  /** JavaScript's length is never shorter than the character count, and equals
      it when every character lies in the Basic Multilingual Plane. */
  lemma {:induction false} Utf16LengthBounds(s: string)
    ensures Utf16Length(s) >= |s|
    ensures (forall i | 0 <= i < |s| :: s[i] as int <= 0xFFFF) ==> Utf16Length(s) == |s|
    decreases |s|
  {
    if |s| > 0 {
      Utf16LengthBounds(s[1..]);
      if forall i | 0 <= i < |s| :: s[i] as int <= 0xFFFF {
        assert forall i | 0 <= i < |s[1..]| :: s[1..][i] as int <= 0xFFFF by {
          forall i | 0 <= i < |s[1..]| ensures s[1..][i] as int <= 0xFFFF {
            assert s[1..][i] == s[i + 1];
          }
        }
      }
    }
  }

  /** `s || fallback` for strings: the empty string is falsy. */
  function OrElse(s: string, fallback: string): (r: string)
    ensures s != "" ==> r == s
    ensures s == "" ==> r == fallback
  {
    if s != "" then s else fallback
  }

  /** `s.lastIndexOf(c)`: the position of the last `c`, or -1. */
  function LastIndexOf(s: string, c: char): (r: int)
    ensures -1 <= r < |s|
    ensures r == -1 <==> c !in s
    ensures r >= 0 ==> s[r] == c && forall j | r < j < |s| :: s[j] != c
    decreases |s|
  {
    if |s| == 0 then -1
    else if s[|s| - 1] == c then |s| - 1
    else
      var r := LastIndexOf(s[..|s| - 1], c);
      assert c in s ==> c in s[..|s| - 1] by {
        if c in s {
          var k :| 0 <= k < |s| && s[k] == c;
          assert s[..|s| - 1][k] == c;
        }
      }
      r
  }

  /** `s.substring(start, end)`: both ends clamped to [0, |s|], swapped if reversed. */
  function Substring(s: string, start: int, end: int): (r: string)
    ensures 0 <= start <= end <= |s| ==> r == s[start..end]
    ensures start <= 0 && end <= 0 ==> r == ""
    ensures |r| <= |s|
  {
    var a := if start < 0 then 0 else if start > |s| then |s| else start;
    var b := if end < 0 then 0 else if end > |s| then |s| else end;
    if a <= b then s[a..b] else s[b..a]
  }

  /** `s.split(c)` for a one-character separator: the pieces between occurrences of `c`. */
  function Split(s: string, c: char): (r: seq<string>)
    ensures |r| > 0
    decreases |s|
  {
    if c !in s then [s]
    else
      var i := FirstIndexOf(s, c);
      [s[..i]] + Split(s[i + 1..], c)
  }

  /** The position of the first `c` in `s`. */
  function FirstIndexOf(s: string, c: char): (i: nat)
    requires c in s
    ensures i < |s| && s[i] == c && c !in s[..i]
    decreases |s|
  {
    if s[0] == c then 0
    else
      assert c in s[1..] by {
        var k :| 0 <= k < |s| && s[k] == c;
        assert s[1..][k - 1] == c;
      }
      var j := FirstIndexOf(s[1..], c);
      assert s[..j + 1] == [s[0]] + s[1..][..j];
      j + 1
  }

  /** `s.split(c).pop()` is the text after the last `c` (the whole string when
      there is none). */
  lemma {:induction false} SplitLastPiece(s: string, c: char)
    ensures Split(s, c)[|Split(s, c)| - 1] == s[LastIndexOf(s, c) + 1..]
    decreases |s|
  {
    if c in s {
      var i := FirstIndexOf(s, c);
      var rest := s[i + 1..];
      SplitLastPiece(rest, c);
      var pieces := Split(s, c);
      assert pieces == [s[..i]] + Split(rest, c);
      assert pieces[|pieces| - 1] == Split(rest, c)[|Split(rest, c)| - 1];
      LastIndexShift(s, c, i);
    }
  }

  /** The last `c` of `s` lies after its first one, inside the remainder. */
  lemma LastIndexShift(s: string, c: char, i: nat)
    requires i < |s| && s[i] == c
    ensures s[LastIndexOf(s, c) + 1..] == s[i + 1..][LastIndexOf(s[i + 1..], c) + 1..]
  {
    var m := LastIndexOf(s[i + 1..], c);
    LastIndexInSuffix(s, c, i);
    assert s[i + 1 + m + 1..] == s[i + 1..][m + 1..];
  }

  /** Counted in `s`, the last `c` after position `i` sits `i + 1` further on. */
  lemma LastIndexInSuffix(s: string, c: char, i: nat)
    requires i < |s| && s[i] == c
    ensures LastIndexOf(s, c) == i + 1 + LastIndexOf(s[i + 1..], c)
  {
    var rest := s[i + 1..];
    var m := LastIndexOf(rest, c);
    NoneAfterInSuffix(s, c, i, m);
    if m >= 0 {
      assert s[i + 1 + m] == rest[m];
      LastIndexUnique(s, c, i + 1 + m);
    } else {
      LastIndexUnique(s, c, i);
    }
  }

  /** No `c` follows the last one of the suffix after position `i`. */
  lemma NoneAfterInSuffix(s: string, c: char, i: nat, m: int)
    requires i < |s| && m == LastIndexOf(s[i + 1..], c)
    ensures forall j | i + 1 + m < j < |s| :: s[j] != c
  {
    var rest := s[i + 1..];
    forall j | i + 1 + m < j < |s|
      ensures s[j] != c
    {
      assert s[j] == rest[j - i - 1];
    }
  }

  /** An occurrence of `c` with none after it is the one `LastIndexOf` finds. */
  lemma LastIndexUnique(s: string, c: char, k: nat)
    requires k < |s| && s[k] == c
    requires forall j | k < j < |s| :: s[j] != c
    ensures LastIndexOf(s, c) == k
  {
    assert c in s by { assert s[k] == c; }
  }
}

=== FILE: user_entity.dfy ===
/** The `User` entity. The password field holds whatever the caller passes
    (the hash, in practice); timestamps are not modelled. */
module UserEntity {
  import opened Monads
  import opened Text

  datatype User = User(id: string, username: string, email: string, password: string, role: string)

  /** The values of the `UserRole` enumeration. */
  const AdminRole := "Admin"
  const UserRole := "User"
  const MinPasswordLength := 8

  const InvalidEmail := "Invalid email format."
  const UsernameEmpty := "Username cannot be empty."
  const PasswordTooShort := "Password must be at least 8 characters long."
  const InvalidRole := "Invalid user role."

  predicate IsUserRole(role: string) {
    role == AdminRole || role == UserRole
  }

  predicate LongEnough(password: string) {
    Utf16Length(password) >= MinPasswordLength
  }

  predicate ValidUser(u: User) {
    '@' in u.email && !Blank(u.username) && LongEnough(u.password) && IsUserRole(u.role)
  }

  /** `validate()`: first failing check, in the order email, username,
      password, role. */
  function ValidateUser(u: User): (e: Option<string>)
    ensures e.None? <==> ValidUser(u)
    ensures '@' !in u.email ==> e == Some(InvalidEmail)
    ensures '@' in u.email && Blank(u.username) ==> e == Some(UsernameEmpty)
    ensures '@' in u.email && !Blank(u.username) && !LongEnough(u.password) ==> e == Some(PasswordTooShort)
    ensures '@' in u.email && !Blank(u.username) && LongEnough(u.password) && !IsUserRole(u.role) ==> e == Some(InvalidRole)
  {
    if '@' !in u.email then Some(InvalidEmail)
    else if Trim(u.username) == "" then Some(UsernameEmpty)
    else if Utf16Length(u.password) < MinPasswordLength then Some(PasswordTooShort)
    else if u.role !in [AdminRole, UserRole] then Some(InvalidRole)
    else None
  }

  /** The constructor (and `UserFactory.create`); an omitted role (`None`)
      defaults to `UserRole.User`. */
  function NewUser(username: string, email: string, password: string, role: Option<string>, id: string, freshId: string): (r: Either<string, User>)
    ensures r.Ok? <==> ValidUser(User(id, username, email, password, if role.Some? then role.value else UserRole))
    ensures r.Ok? ==> r.value.username == username && r.value.email == email && r.value.password == password
    ensures r.Ok? && role.None? ==> r.value.role == UserRole
    ensures r.Ok? && role.Some? ==> r.value.role == role.value
    ensures r.Ok? && id != "" ==> r.value.id == id
    ensures r.Ok? && id == "" ==> r.value.id == freshId
    ensures '@' !in email ==> r == Failure(InvalidEmail)
    ensures '@' in email && Blank(username) ==> r == Failure(UsernameEmpty)
    ensures '@' in email && !Blank(username) && !LongEnough(password) ==> r == Failure(PasswordTooShort)
    ensures '@' in email && !Blank(username) && LongEnough(password) && role.Some? && !IsUserRole(role.value) ==>
      r == Failure(InvalidRole)
  {
    var u := User(OrElse(id, freshId), username, email, password, match role case Some(x) => x case None => UserRole);
    match ValidateUser(u)
    case Some(msg) => Failure(msg)
    case None => Ok(u)
  }

  /** `updatePassword`: a password shorter than 8 code units is rejected;
      otherwise only the password changes. */
  function UpdatePassword(u: User, newPassword: string): (r: Either<string, User>)
    ensures r.Failure? <==> !LongEnough(newPassword)
    ensures r.Failure? ==> r.error == PasswordTooShort
    ensures r.Ok? ==> r.value.password == newPassword
    ensures r.Ok? ==> r.value.id == u.id && r.value.username == u.username && r.value.email == u.email && r.value.role == u.role
    ensures r.Ok? && ValidUser(u) ==> ValidUser(r.value)
  {
    if Utf16Length(newPassword) < MinPasswordLength then Failure(PasswordTooShort) else Ok(u.(password := newPassword))
  }
}

=== FILE: user_repository.dfy ===
/** `UserRepository` over the `users` table. Rows are turned back into
    entities through the `User` constructor (`toEntity`), so a stored row that
    fails validation surfaces as the operation's Failure. Every operation
    takes `fail`, standing for the storage statement throwing; `freshId` is
    the id the constructor would mint for a row whose id is empty. */
module UserRepository {
  import opened Monads
  import opened Seqs
  import opened Text
  import opened UserEntity

  const CreateUserFailed := "Failed to create user"
  const FetchByIdFailed := "Failed to fetch user by ID"
  const FetchByUsernameFailed := "Failed to fetch user by username"
  const FetchByEmailFailed := "Failed to fetch user by email"
  const UserNotFoundForUpdate := "User not found for update"
  const UpdateUserFailed := "Failed to update user"
  const UserNotFoundForDeletion := "User not found for deletion"
  const DeleteUserFailed := "Failed to delete user"
  const FetchRoleFailed := "Failed to fetch user role"

  predicate HasUser(table: seq<User>, id: string) {
    exists i | 0 <= i < |table| :: table[i].id == id
  }

  /** The `where` conditions of the three single-user selects. */
  function ById(id: string): User -> bool { (u: User) => u.id == id }

  function ByUsername(username: string): User -> bool { (u: User) => u.username == username }

  function ByEmail(email: string): User -> bool { (u: User) => u.email == email }

  /** The first stored row with the id. */
  function FirstWithId(table: seq<User>, id: string): (u: User)
    requires HasUser(table, id)
    ensures u in table && u.id == id
  {
    var i :| 0 <= i < |table| && table[i].id == id;
    assert ById(id)(table[i]);
    Find(table, ById(id)).value
  }

  /** `toEntity`: re-validates a stored row. A valid row comes back unchanged. */
  function ToEntity(row: User, freshId: string): (r: Either<string, User>)
    ensures r.Ok? <==> ValidUser(row)
    ensures r.Ok? ==> ValidUser(r.value)
    ensures r.Ok? && row.id != "" ==> r.value == row
  {
    NewUser(row.username, row.email, row.password, Some(row.role), row.id, freshId)
  }

  /** A select on one column: the first matching row as an entity, null when
      there is none, and `msg` when the row fails validation. */
  function FetchWhere(table: seq<User>, p: User -> bool, freshId: string, fail: bool, msg: string): (r: Either<string, Option<User>>)
    ensures fail ==> r == Failure(msg)
    ensures !fail && Find(table, p).None? ==> r == Ok(None)
    ensures !fail && Find(table, p).Some? && !ValidUser(Find(table, p).value) ==> r == Failure(msg)
    ensures !fail && Find(table, p).Some? && ValidUser(Find(table, p).value) ==> r.Ok? && r.value.Some?
    ensures r.Ok? && r.value.Some? ==> ValidUser(r.value.value)
    ensures r.Ok? && r.value.Some? && Find(table, p).value.id != "" ==> r.value.value in table && p(r.value.value)
    ensures !fail && Find(table, p).Some? && ValidUser(Find(table, p).value) && Find(table, p).value.id != "" ==>
      r == Ok(Some(Find(table, p).value))
  {
    if fail then Failure(msg)
    else
      match Find(table, p)
      case None => Ok(None)
      case Some(row) =>
        match ToEntity(row, freshId)
        case Failure(_) => Failure(msg)
        case Ok(u) => Ok(Some(u))
  }

  /** `add`: stores the user's id, username, email, hashed password and role,
      then re-validates the stored row; the row stays even when that fails. */
  function Add(table: seq<User>, user: User, freshId: string, fail: bool): (r: (seq<User>, Either<string, User>))
    ensures fail ==> r == (table, Failure(CreateUserFailed))
    ensures !fail ==> |r.0| == |table| + 1 && r.0[..|table|] == table && r.0[|table|] == user
    ensures !fail ==> (r.1.Ok? <==> ValidUser(user))
    ensures r.1.Failure? ==> r.1.error == CreateUserFailed
    ensures r.1.Ok? && user.id != "" ==> r.1.value == user
  {
    if fail then (table, Failure(CreateUserFailed))
    else
      match ToEntity(user, freshId)
      case Failure(_) => (table + [user], Failure(CreateUserFailed))
      case Ok(u) => (table + [user], Ok(u))
  }

  /** `fetchById`: null when no row has the id. */
  function FetchById(table: seq<User>, id: string, freshId: string, fail: bool): (r: Either<string, Option<User>>)
    ensures fail ==> r == Failure(FetchByIdFailed)
    ensures !fail && !HasUser(table, id) ==> r == Ok(None)
    ensures r.Ok? && r.value.Some? ==> ValidUser(r.value.value)
    ensures r.Ok? && r.value.Some? && id != "" ==> r.value.value in table && r.value.value.id == id
    ensures r.Failure? ==> r.error == FetchByIdFailed
    ensures !fail && HasUser(table, id) && !ValidUser(FirstWithId(table, id)) ==> r == Failure(FetchByIdFailed)
    ensures !fail && HasUser(table, id) && ValidUser(FirstWithId(table, id)) ==> r.Ok? && r.value.Some?
    ensures !fail && HasUser(table, id) && ValidUser(FirstWithId(table, id)) && id != "" ==> r == Ok(Some(FirstWithId(table, id)))
  {
    FetchWhere(table, ById(id), freshId, fail, FetchByIdFailed)
  }

  /** `fetchByUsername`: null when no row has the username. */
  function FetchByUsername(table: seq<User>, username: string, freshId: string, fail: bool): (r: Either<string, Option<User>>)
    ensures fail ==> r == Failure(FetchByUsernameFailed)
    ensures !fail && (forall i | 0 <= i < |table| :: table[i].username != username) ==> r == Ok(None)
    ensures r.Ok? && r.value.Some? ==> ValidUser(r.value.value) && r.value.value.username == username
    ensures r.Failure? ==> r.error == FetchByUsernameFailed
    ensures !fail && Find(table, ByUsername(username)).Some? ==> (r.Ok? <==> ValidUser(Find(table, ByUsername(username)).value))
    ensures !fail && Find(table, ByUsername(username)).Some? ==> (r.Ok? ==> r.value.Some?)
    ensures (!fail && Find(table, ByUsername(username)).Some? && ValidUser(Find(table, ByUsername(username)).value)
             && Find(table, ByUsername(username)).value.id != "") ==> r == Ok(Some(Find(table, ByUsername(username)).value))
  {
    FetchWhere(table, ByUsername(username), freshId, fail, FetchByUsernameFailed)
  }

  /** `fetchByEmail`: null when no row has the email. */
  function FetchByEmail(table: seq<User>, email: string, freshId: string, fail: bool): (r: Either<string, Option<User>>)
    ensures fail ==> r == Failure(FetchByEmailFailed)
    ensures !fail && (forall i | 0 <= i < |table| :: table[i].email != email) ==> r == Ok(None)
    ensures r.Ok? && r.value.Some? ==> ValidUser(r.value.value) && r.value.value.email == email
    ensures r.Failure? ==> r.error == FetchByEmailFailed
    ensures !fail && Find(table, ByEmail(email)).Some? ==> (r.Ok? <==> ValidUser(Find(table, ByEmail(email)).value))
    ensures !fail && Find(table, ByEmail(email)).Some? ==> (r.Ok? ==> r.value.Some?)
    ensures (!fail && Find(table, ByEmail(email)).Some? && ValidUser(Find(table, ByEmail(email)).value)
             && Find(table, ByEmail(email)).value.id != "") ==> r == Ok(Some(Find(table, ByEmail(email)).value))
  {
    FetchWhere(table, ByEmail(email), freshId, fail, FetchByEmailFailed)
  }

  /** `update`: overwrites username, email, password and role of the row(s)
      with the user's id; "User not found for update" when there is none. */
  function Update(table: seq<User>, user: User, freshId: string, fail: bool): (r: (seq<User>, Either<string, User>))
    ensures fail ==> r == (table, Failure(UpdateUserFailed))
    ensures !fail && !HasUser(table, user.id) ==> r == (table, Failure(UserNotFoundForUpdate))
    ensures !fail ==> |r.0| == |table|
    ensures !fail ==> forall i | 0 <= i < |table| :: r.0[i] == (if table[i].id == user.id then user else table[i])
    ensures r.1.Ok? ==> HasUser(table, user.id) && ValidUser(user)
    ensures r.1.Ok? && user.id != "" ==> r.1.value == user
  {
    if fail then (table, Failure(UpdateUserFailed))
    else
      var updated := UpdateWhere(table, (u: User) => u.id == user.id,
        (u: User) => u.(username := user.username, email := user.email, password := user.password, role := user.role));
      match Find(table, (u: User) => u.id == user.id)
      case None =>
        assert updated == table;
        (table, Failure(UserNotFoundForUpdate))
      case Some(row) =>
        match ToEntity(user, freshId)
        case Failure(_) => (updated, Failure(UpdateUserFailed))
        case Ok(u) => (updated, Ok(u))
  }

  /** `remove`: ok(true) when a row was deleted, otherwise the Failure
      "User not found for deletion". */
  function Remove(table: seq<User>, id: string, fail: bool): (r: (seq<User>, Either<string, bool>))
    ensures fail ==> r == (table, Failure(DeleteUserFailed))
    ensures !fail ==> (r.1 == Ok(true) <==> HasUser(table, id))
    ensures !fail && !HasUser(table, id) ==> r == (table, Failure(UserNotFoundForDeletion))
    ensures !fail ==> forall i | 0 <= i < |r.0| :: r.0[i] in table && r.0[i].id != id
    ensures !fail ==> forall i | 0 <= i < |table| :: table[i].id != id ==> table[i] in r.0
  {
    if fail then (table, Failure(DeleteUserFailed))
    else
      var kept := Filter(table, (u: User) => u.id != id);
      if |table| - |kept| > 0 then (kept, Ok(true))
      else
        (table, Failure(UserNotFoundForDeletion))
  }

  /** `fetchUserRole`: the role of the user with that id, "" for an unknown user. */
  function FetchUserRole(table: seq<User>, userId: string, fail: bool): (r: Either<string, string>)
    ensures fail ==> r == Failure(FetchRoleFailed)
    ensures !fail && !HasUser(table, userId) ==> r == Ok("")
    ensures !fail && HasUser(table, userId) ==> r == Ok(FirstWithId(table, userId).role)
  {
    if fail then Failure(FetchRoleFailed)
    else
      match Find(table, ById(userId))
      case None => Ok("")
      case Some(row) => Ok(OrElse(row.role, ""))
  }
}
